=== FILE: README.md ===
# PackAndCarry core in Dafny

PackAndCarry is a script for GTA IV (IV-SDK .NET) that gives the player an
inventory. Other scripts drive it through a string-keyed command protocol. Its
core, `PackAndCarry/PackAndCarry/Main.cs`, has three parts, and this project
models each of them as pure functions over immutable data:

- **The command dispatcher.** `Main_ScriptCommandReceived` decodes a command
  name into a closed enumeration. It runs the command against a registry
  state: the inventory pool, the player inventory id, the deferred-delivery
  queue and an item-id counter. Every command that addresses an inventory
  resolves the inventory id first, then the item id. A miss answers the
  command's sentinel. Anything that throws is caught and answered with null.
- **The event router.** Subscriptions are item tags holding the subscriber's
  script id. A UI callback on a subscribed item appends one delivery
  descriptor to a FIFO queue. The top of the next tick drains that queue.
- **The per-tick housekeeping.** This covers three rules:
  - the clothing-based capacity rule;
  - the sweep that removes items whose owning script stopped;
  - the weapon sync, which removes or relabels game-weapon items and
    auto-adds an item for each carried weapon.

Game queries are parameters of the model. These are: running scripts, held
weapons and ammo, weapon slots, the drawable variation, the episode, string
hashes, weapon names, textures and weights. The order in which `GetItems`
returns the items is also a parameter.

Files:

- `values.dfy` (module `Values`):
  - `Option` and `Outcome` (an `Outcome` fault is a thrown exception);
  - GUIDs as numbers, with 0 standing for `Guid.Empty`;
  - boxed argument values;
  - the `Convert.*` coercions and casts.
- `items.dfy` (module `Items`):
  - the item record;
  - tag maps with add-if-absent;
  - popup entries with set semantics.
- `inventories.dfy` (module `Inventories`): the parts of the inventory library
  the core relies on. An inventory is a capacity plus a map of items, and its
  free slots are the capacity minus the item count.
- `events.dfy` (module `Events`):
  - subscription tags;
  - the subscriber check of the UI handlers;
  - the delivery queue and its drain.
- `dispatcher.dfy` (module `Dispatcher`):
  - command names and `Parse`;
  - the registry state and its invariant;
  - the two-stage lookup;
  - every command handler;
  - `Execute` (one command inside the catch-all) and `Dispatch` (the string
    switch).
- `dispatcher_facts.dfy` (module `DispatcherFacts`): per-command properties of
  the dispatcher, and preservation of the registry invariant.
- `housekeeping.dfy` (module `Housekeeping`):
  - the capacity decision;
  - a generic in-place sweep over a `GetItems` snapshot;
  - the orphan sweep;
  - the weapon sweep and the auto-add pass.
- `tick.dfy` (module `Tick`):
  - the top of `Main_Tick`: the multiplayer guard and the queue drain;
  - deliveries across a tick boundary;
  - the housekeeping passes composed in tick order.

Modelling choices:

- **Fresh ids come from a counter.** `Guid.NewGuid()` becomes the state's
  `nextId` counter. Only uniqueness of ids is relied upon.
- **Uncaught exceptions in the tick.** Of the modelled passes, three things
  can throw out of the tick:
  - an owner tag that is not a GUID;
  - a `WEIGHT` tag that `Convert.ToSingle` rejects, when `HandlePlayerImpacts`
    sums the weight;
  - a game-weapon item without a readable `WeaponType`.

  A sweep stops at the item that throws, and the later passes of that tick do
  not run.
- **Exceptions in a UI handler.** The click, drag-out and "Drop" handlers read
  the `WeaponType` of a game-weapon item before routing the event. If that
  read throws, nothing is enqueued.
- **A null argument array** is `None`.
- **A null sender script** is `None`.

Answers that are easy to get wrong:

- **Unknown or null command.** An unknown or null command answers null, the
  same answer as a caught exception.
- **Coercion failure.** A failed cast or coercion is caught and answers null.
  It does not answer the command's own sentinel.
- **Free slots with no arguments.** `GET_AMOUNT_OF_FREE_SLOTS_IN_INVENTORY`
  with a null argument array answers -1, not 0.
- **Item-exists with no arguments.** `DOES_ITEM_EXISTS_IN_INVENTORY` has no
  null-argument guard, so a null argument array answers null.

## Model

| member | source | states |
|---|---|---|
| Values.GuidArg | PackAndCarry/PackAndCarry/Main.cs:774 | the `(Guid)args[i]` cast succeeds exactly when position i exists and holds a GUID, and then yields that GUID |
| Values.IntTextRoundTrip | PackAndCarry/PackAndCarry/Main.cs:1435-1443 | the decimal text an integer is formatted as reads back as the same integer |
| Values.Int32TextRoundTrip | PackAndCarry/PackAndCarry/Main.cs:1402 | the `WeaponType` conversion also accepts the tag as text: an Int32 written by `Convert.ToString` reads back through `Convert.ToInt32` as the same number |
| Values.BooleanTextRoundTrip | PackAndCarry/PackAndCarry/Main.cs:1151 | a boolean written as text by `Convert.ToString` reads back through `Convert.ToBoolean` |
| Items.AddTag | PackAndCarry/PackAndCarry/Main.cs:884-892 | succeeds iff the key is absent; a present key is not overwritten; on success exactly that key is added, with the given value; all other tags are kept |
| Items.RemoveTag | PackAndCarry/PackAndCarry/Main.cs:916-922 | succeeds iff the key is present; afterwards the key set is the old one minus that key, and every other tag keeps its value |
| Items.AddThenRemoveTag | PackAndCarry/PackAndCarry/Main.cs:884-922 | adding an absent key and then removing it restores the tag map |
| Items.RemoveThenAddTag | PackAndCarry/PackAndCarry/Main.cs:884-922 | removing a present key and adding it back with its old value restores the tag map |
| Items.AddPopup | PackAndCarry/PackAndCarry/Main.cs:972-980 | set insertion: reports false iff the entry was already present; nothing else changes |
| Items.RemovePopup | PackAndCarry/PackAndCarry/Main.cs:1004-1010 | set deletion: reports false iff the entry was missing; nothing else changes |
| Items.AddThenRemovePopup | PackAndCarry/PackAndCarry/Main.cs:972-1010 | adding a new popup entry and removing it again restores the menu |
| Items.AddPopupTwice | PackAndCarry/PackAndCarry/Main.cs:974-975 | a second add of the same entry is rejected and changes nothing |
| Inventories.AddItem | PackAndCarry/PackAndCarry/Main.cs:820-824 | succeeds iff a slot is free and the id is new; on success the item set grows by exactly that item; otherwise the inventory is unchanged |
| Inventories.RemoveItem | PackAndCarry/PackAndCarry/Main.cs:845 | succeeds iff the id is held; exactly that item goes and the others keep their values |
| Inventories.GetItem | PackAndCarry/PackAndCarry/Main.cs:878-881 | finds an item iff its id is held, and returns the held item |
| Inventories.AddItemTakesOneSlot | PackAndCarry/PackAndCarry/Main.cs:800-824 | a successful add keeps the inventory valid and lowers the free-slot count by exactly one |
| Inventories.AddThenRemoveItem | PackAndCarry/PackAndCarry/Main.cs:820-845 | adding an item and then removing it by id restores the inventory |
| Inventories.RemoveItemFreesOneSlot | PackAndCarry/PackAndCarry/Main.cs:845 | removing a held item keeps the inventory valid and frees exactly one slot |
| Events.Subscribe | PackAndCarry/PackAndCarry/Main.cs:555-576 | succeeds iff the event tag is absent, so a first subscriber is never replaced; on success the event tag holds the sender's id, the sender becomes the subscriber, and no other tag changes |
| Events.Unsubscribe | PackAndCarry/PackAndCarry/Main.cs:578-598 | succeeds iff the event tag is present; afterwards the item has no subscriber for that event and every other tag is kept |
| Events.SubscribeThenUnsubscribe | PackAndCarry/PackAndCarry/Main.cs:555-598 | a successful subscribe followed by an unsubscribe restores the item |
| Events.Notify | PackAndCarry/PackAndCarry/Main.cs:468-495 | a UI event appends at most one delivery and keeps the queue's prefix; it appends one iff the handler's game-weapon prefix does not throw (a missing or non-Int32 `WeaponType` on a game-weapon item, read at Main.cs:637-641 or via `DropItem` at Main.cs:445) and the item's tag holds a non-empty GUID; that delivery carries the event's command and the arguments (inventory id, item id, event arguments) |
| Events.SubscribedEventReachesSubscriber | PackAndCarry/PackAndCarry/Main.cs:602-650 | after a successful subscribe with a non-empty script id, and when the handler does not throw first, the event enqueues exactly one delivery, addressed to that script |
| Events.UnsubscribedEventIsSilent | PackAndCarry/PackAndCarry/Main.cs:602-650 | after an unsubscribe, the event enqueues nothing |
| Events.DrainQueue | PackAndCarry/PackAndCarry/Main.cs:1282-1283 | the drain sends every queued delivery, oldest first, and leaves the queue empty |
| Dispatcher.FindInventory | PackAndCarry/PackAndCarry/Main.cs:526-536 | throws iff the pool is gone; otherwise finds an inventory iff its id is registered, and returns the registered inventory |
| Dispatcher.ResolveItem | PackAndCarry/PackAndCarry/Main.cs:868-881 | a found location names a registered inventory, taken from args[0], and an item held in it, taken from args[1] |
| Dispatcher.ParseName | PackAndCarry/PackAndCarry/Main.cs:758-1255 | every command is recognised under its own name, so the string switch and the command names agree |
| Dispatcher.Execute | PackAndCarry/PackAndCarry/Main.cs:756-1265 | no command changes the queue, the player inventory id or the set of inventories; a handler fault answers null and changes nothing; a null-sender ADD_NEW_ITEM_TO_INVENTORY keeps its placed item (see `DispatcherFacts.AddNewItemNullSender`) |
| Dispatcher.Dispatch | PackAndCarry/PackAndCarry/Main.cs:754-1266 | an unrecognised command name answers null and changes nothing; no command changes anything outside the item maps and the id counter |
| Dispatcher.DispatchByName | PackAndCarry/PackAndCarry/Main.cs:758-1255 | dispatching a command's name runs exactly that command |
| DispatcherFacts.InventoryMissIsSentinel | PackAndCarry/PackAndCarry/Main.cs:862-873 | outside the subscription commands, an unregistered inventory answers the sentinel and changes nothing, whatever follows args[0]; the item argument is never read |
| DispatcherFacts.SubscriptionArgsReadFirst | PackAndCarry/PackAndCarry/Main.cs:1171-1179 | the subscription commands cast args[1], and subscribe reads `fromScript.ID`, before any lookup: a missing or non-GUID item argument, or a subscribe from a null sender, answers null and changes nothing |
| DispatcherFacts.LookupMissIsSentinel | PackAndCarry/PackAndCarry/Main.cs:862-881 | a missing inventory, or a missing item for an item command, answers the command's sentinel (`false`, `0` or `Guid.Empty`) and leaves the state unchanged |
| DispatcherFacts.FreeSlotsWithNullArgs | PackAndCarry/PackAndCarry/Main.cs:769-772 | with a null argument array, GET_AMOUNT_OF_FREE_SLOTS_IN_INVENTORY answers -1 |
| DispatcherFacts.FreeSlotsFound | PackAndCarry/PackAndCarry/Main.cs:769-783 | for a registered inventory, GET_AMOUNT_OF_FREE_SLOTS_IN_INVENTORY answers its free-slot count |
| DispatcherFacts.DoesItemExistWithNullArgs | PackAndCarry/PackAndCarry/Main.cs:847-858 | with a null argument array, DOES_ITEM_EXISTS_IN_INVENTORY throws and answers null |
| DispatcherFacts.BadInventoryArgIsNull | PackAndCarry/PackAndCarry/Main.cs:1257-1265 | a first argument that is missing or not a GUID is caught, answers null and changes nothing |
| DispatcherFacts.AddNewItemWhenFull | PackAndCarry/PackAndCarry/Main.cs:800-801 | ADD_NEW_ITEM_TO_INVENTORY on a full inventory answers `Guid.Empty` and adds nothing |
| DispatcherFacts.AddNewItemSucceeds | PackAndCarry/PackAndCarry/Main.cs:786-829 | with a free slot, the command answers a previously unused id; exactly that item joins the inventory, carrying the given hash and texts and tagged `IS_CUSTOM_ITEM` with the sender's id; other inventories are unchanged |
| DispatcherFacts.AddNewItemNullSender | PackAndCarry/PackAndCarry/Main.cs:820-826 | with no sender the item is placed untagged before `fromScript.ID` throws, and the answer is null |
| DispatcherFacts.AddNewItemKeepsValid | PackAndCarry/PackAndCarry/Main.cs:786-829 | adding a new item keeps the registry invariant |
| DispatcherFacts.ItemCommandEffect | PackAndCarry/PackAndCarry/Main.cs:862-1168 | an item command on a found item applies its body to that item, writes it back in place and answers the body's boolean; an exception changes nothing |
| DispatcherFacts.AddTagCommand | PackAndCarry/PackAndCarry/Main.cs:862-893 | ADD_TAG_TO_ITEM on a present key answers false and overwrites nothing; on an absent key it adds exactly that key, with args[3], and answers true |
| DispatcherFacts.RemoveTagCommand | PackAndCarry/PackAndCarry/Main.cs:894-923 | REMOVE_TAG_FROM_ITEM on an absent key answers false and changes nothing; on a present key it removes exactly that key |
| DispatcherFacts.HasTagCommand | PackAndCarry/PackAndCarry/Main.cs:924-947 | DOES_ITEM_HAVE_TAG reports key membership and changes nothing |
| DispatcherFacts.PopupCommands | PackAndCarry/PackAndCarry/Main.cs:950-1035 | the popup commands act as set insert, set delete and membership test, and report duplicates and misses as false |
| DispatcherFacts.KeepOnUnloadCommand | PackAndCarry/PackAndCarry/Main.cs:1130-1168 | the marker tag is present afterwards exactly when the flag was set; no other tag changes; the answer is true |
| DispatcherFacts.SubscribeKeepsFirst | PackAndCarry/PackAndCarry/Main.cs:1171-1179 | subscribing to an event the item is already subscribed to answers false and changes nothing |
| DispatcherFacts.SubscribeRecordsSender | PackAndCarry/PackAndCarry/Main.cs:1171-1179 | a successful subscribe makes the sender the item's subscriber for that event |
| DispatcherFacts.SubscribeUnsubscribeRoundTrip | PackAndCarry/PackAndCarry/Main.cs:1171-1255 | a successful subscribe followed by the matching unsubscribe answers true and restores the whole state |
| DispatcherFacts.DispatchPreservesValid | PackAndCarry/PackAndCarry/Main.cs:754-1266 | no command string breaks the registry invariant, which says: inventories are filed under their ids and are valid; item ids are issued and non-empty; no id is held twice |
| DispatcherFacts.ExecutePreservesValid | PackAndCarry/PackAndCarry/Main.cs:756-1265 | every recognised command keeps the registry invariant |
| Housekeeping.FirstSlotFor | PackAndCarry/PackAndCarry/Main.cs:273 | finds the first table entry whose index is the drawable, or reports that none matches |
| Housekeeping.CapacityDecision | PackAndCarry/PackAndCarry/Main.cs:251-283 | no resize while extra slots are off or the inventory is visible; any resize is to the capacity the clothing calls for; with clothing on, a resize is requested only when the capacity differs |
| Housekeeping.CapacityReachesTarget | PackAndCarry/PackAndCarry/Main.cs:251-283 | while the rule is active, the inventory is either resized to the target capacity or already has it |
| Housekeeping.CapacitySettles | PackAndCarry/PackAndCarry/Main.cs:251-283 | once the decided capacity is applied, deciding again asks for nothing new |
| Housekeeping.Sweep | PackAndCarry/PackAndCarry/Main.cs:285-311 | an in-place loop over a snapshot only removes items, and leaves items outside the snapshot untouched |
| Housekeeping.SweepMatchesSwept | PackAndCarry/PackAndCarry/Main.cs:1391-1446 | when nothing throws, the loop over a repetition-free order gives each visited item its own outcome, whatever the order |
| Housekeeping.OrphanStep | PackAndCarry/PackAndCarry/Main.cs:293-309 | for one item: throws iff its owner tag is not a GUID; otherwise removes it iff it is an orphan, and keeps it unchanged if not |
| Housekeeping.RemoveOrphansExactly | PackAndCarry/PackAndCarry/Main.cs:285-311 | removes exactly the items that have `IS_CUSTOM_ITEM`, lack the keep marker and whose owner script is not running; every other item is untouched |
| Housekeeping.UnreadableOwnerAborts | PackAndCarry/PackAndCarry/Main.cs:302 | an owner tag that is not a GUID throws and ends the sweep at that item |
| Housekeeping.AmmoLabelShowsAmmo | PackAndCarry/PackAndCarry/Main.cs:1422-1445 | every non-melee weapon label is the current ammo count followed by its unit text, and the count can be read back from the label |
| Housekeeping.WeaponStep | PackAndCarry/PackAndCarry/Main.cs:1395-1445 | for one item: throws iff a game-weapon item has no readable `WeaponType`; otherwise keeps it iff its weapon is held with non-zero ammo; a kept item changes only in its ammo label |
| Housekeeping.UpdateWeaponsExactly | PackAndCarry/PackAndCarry/Main.cs:1391-1446 | removes exactly the game-weapon items whose weapon is gone or empty, relabels the other weapon items with their ammo, and leaves every other item untouched |
| Housekeeping.WeaponItem | PackAndCarry/PackAndCarry/Main.cs:1478-1496 | the auto-added item carries the weapon's hash, the `IS_GAME_WEAPON` tag, the `WeaponType` tag, the "Drop" popup and the weapon's name; it has a weight tag iff a weight is predefined for that name, and then the tag holds the predefined weight and the bottom-right text is that weight followed by "lb" |
| Housekeeping.AutoAdd | PackAndCarry/PackAndCarry/Main.cs:1448-1499 | never removes or changes an existing item; every added item has a fresh id, is a game-weapon item and has a hash some carried, eligible weapon calls for; validity is kept |
| Housekeeping.AutoAddBuildsWeaponItems | PackAndCarry/PackAndCarry/Main.cs:1448-1498 | every added item is exactly the weapon item built, under its own id, for some slot that is not ignored and has ammo |
| Housekeeping.AutoAddAddsOnlyMissing | PackAndCarry/PackAndCarry/Main.cs:1476 | a weapon is added only when the inventory does not contain its hash: every added item's hash was absent before, and no other item afterwards shares it |
| Housekeeping.AutoAddWhenFull | PackAndCarry/PackAndCarry/Main.cs:1476-1498 | a full inventory receives nothing |
| Housekeeping.AutoAddCovers | PackAndCarry/PackAndCarry/Main.cs:1448-1499 | afterwards every carried weapon that is not ignored and has ammo is shown, unless the inventory is full |
| Housekeeping.AutoAddNothingToDo | PackAndCarry/PackAndCarry/Main.cs:1448-1499 | when every eligible weapon is already shown, or there is no room, the pass changes nothing |
| Housekeeping.AutoAddSettles | PackAndCarry/PackAndCarry/Main.cs:1448-1499 | a second pass with the same slots adds nothing more |
| Tick.Prologue | PackAndCarry/PackAndCarry/Main.cs:1276-1283 | the tick stops at once iff DisableInMP is set during a network game, keeping the queue; otherwise it delivers the whole queue in FIFO order and leaves it empty |
| Tick.NotifyAllAppends | PackAndCarry/PackAndCarry/Main.cs:602-650 | a series of UI callbacks appends exactly its subscribers' deliveries, in the order the callbacks were raised |
| Tick.DeliverNextTick | PackAndCarry/PackAndCarry/Main.cs:1276-1283 | callbacks raised between two ticks reach their subscribers at the top of the next tick, in order, after any backlog a guarded tick left queued, unless the multiplayer guard holds them back again |
| Tick.Housekeep | PackAndCarry/PackAndCarry/Main.cs:1386-1499 | the housekeeping passes draw only fresh ids and keep the inventory's other fields; an aborted tick draws no id and adds no item |
| Tick.ImpactsFaultEndsTick | PackAndCarry/PackAndCarry/Main.cs:543-553 | a `WEIGHT` tag that `Convert.ToSingle` rejects, summed by `HandlePlayerImpacts` (Main.cs:1389), ends the tick after the orphan sweep: the weapon passes do not run |
| Tick.HousekeepWithoutFaults | PackAndCarry/PackAndCarry/Main.cs:1386-1499 | when no owner tag, weight or weapon type is malformed, the tick removes the orphans and the stale weapon items, relabels the rest, then auto-adds for the carried weapons |
| Tick.SweepKeepsIds | PackAndCarry/PackAndCarry/Main.cs:285-311 | a sweep whose steps keep item ids keeps every item filed under its own id |
| Tick.HousekeepKeepsValid | PackAndCarry/PackAndCarry/Main.cs:1386-1499 | every housekeeping tick, even one cut short by an exception, keeps the player inventory valid |
| Tick.HousekeepKeepsRegistry | PackAndCarry/PackAndCarry/Main.cs:1476-1498 | the tick's housekeeping, written back into the registry with the ids it drew, keeps the registry invariant: each added item (a `new BasicInventoryItem` at Main.cs:1478) has an id that no inventory holds |

## Left out

- Two other exceptions can end a tick before the modelled passes, and they
  are left out:
  - `LoadTextures` (Main.cs:1293-1294) calls `Directory.GetFiles` (Main.cs:98),
    which throws when the episode's icon folder is missing. File-system access
    is not modelled.
  - A resize (Main.cs:1385) that evicts a game-weapon item calls `DropItem`
    through the resize handler (Main.cs:652-665), and `Convert.ToInt32` at
    Main.cs:445 can throw there. The handler is a callback from the inventory
    library, which is not part of this model.
- `Values.Value`: `VOpaque` stands for every other boxed object, and both
  `ToIntegral` and `ToBoolean` fault on it. .NET's `Convert` also accepts
  other boxed `IConvertible` values, such as `char`, `decimal` and enums. The
  commands pass only strings, numbers, booleans and GUIDs, so those
  conversions are not modelled.
- `Values.GuidText`: a GUID is a 128-bit value, and the model's `Guid` is an
  unbounded `nat`. `GuidText` shows the low 32 hex digits, so it is injective
  only below 16^32. Every id the model issues comes from a counter that starts
  near zero, and that counter never gets that far in a session.
- Floating point is not modelled. This covers time-scale and move-speed
  interpolation, `Lerp`, stamina and weight sums. A weapon weight is an opaque
  boxed value plus its text.
- Native game calls are inputs of the model, not models of their own: the
  weapon and ammo queries, the drawable variation, the episode, `AtStringHash`
  and weapon names. Pickups and `HandlePreventPlayerToCollectPickup` are left
  out, because they act only on the game world. `DropItem`'s native calls are
  left out too, along with its removal of the dropped item (Main.cs:465). Only
  its weapon-type read is modelled, in `Events.HandlerThrows`.
- `HandlePlayerImpacts` changes stamina and move speed, which are floats, and
  that is left out. Its one effect on the modelled state is the exception
  `Convert.ToSingle` throws on a bad `WEIGHT` tag, and that is modelled. Which
  boxed values `Convert.ToSingle` accepts is an input (`Game.toSingle`), as
  is whether the weight is summed this tick (`Game.weightSumRuns`).
- An exception thrown from a UI handler propagates into the inventory
  library, which is not part of this model. The model says only that nothing
  is enqueued.
- The eWeaponType numbers come from the game's weapon-type enumeration, not
  from this repository. These are UNARMED 0, BASEBALLBAT 1, POOLCUE 2, KNIFE 3,
  GRENADE 4, MOLOTOV 5, RLAUNCHER 18, EPISODIC_8 28, EPISODIC_16 36, and the
  ignored pseudo types 47 through 57.
- Texture loading, the reflective `ImTexture` constructor and the texture
  cache are not modelled. An icon is an opaque handle with a size. Whether the
  constructor lookup succeeded is a flag in the state.
- JSON loading of the clothing table and of the weights is not modelled. The
  table and the weights are inputs.
- The settings file is not modelled. Only the shipped default capacity of 10
  (`PackAndCarry/PackAndCarry/Classes/ModSettings.cs:38`) appears.
- ImGui rendering, `SetCursorPos`, controller and key handling, the
  Stopwatch-timed open and close, and the mission texts are not modelled. They
  are UI, input and timing.
- `SendScriptCommand` is a foreign call whose result is only logged. A drained
  delivery is handed out, not sent.
- `Initialize`, `Uninitialize` and `GameLoad` are not modelled. They create
  and clear the pool and the player inventory. The queue is created once, in
  the constructor. The state's `pool`
  field is `None` outside that window.
- The inventory library's internals are not modelled: slot placement, slot
  order, and `Resize`'s eviction with its left-behind event. Only the capacity
  `Resize` is asked for is modelled.
- `Tick.Housekeep`: starts from the inventory as the resize left it, because
  the resize itself belongs to the inventory library.
- `Guid.NewGuid()` randomness is replaced by a counter. Only uniqueness is
  modelled.
- A null command string takes the same path as an unrecognised name and
  answers null. The model has no null string.
- The string coercions model integers and booleans. They do not model
  surrounding white space, thousands separators, or culture-specific
  formatting.
- `Convert.ToUInt32` and `Convert.ToInt32` on floating-point values are not
  modelled. Those values are not part of the `Value` type.
- Null entries in the array `GetItems` returns are not modelled. Whether the
  library ever returns them is not visible here. `CheckForInvalidScriptItems`
  skips them, and the weapon loop would throw on them.
- A null entry in a clothing table list is not modelled. The `Where` lambda
  would throw on it.
- The order of popup-menu entries is not modelled. `PopupMenuItems` is a list
  whose order is the display order, and `Items.AddPopup` and
  `Items.RemovePopup` treat it as a set. Because the add refuses duplicates,
  the set of entries is still exact.
- Colours of item texts are not modelled. They are display-only.
- `PackAndCarry/PACApiTest/Main.cs` is a UI test script and is not modelled.
  The outbound argument shapes it shows are the ones `Events.Payload` builds.

=== FILE: dispatcher.dfy ===
/**
 * The inter-script command dispatcher. A command arrives as a name, an
 * argument list (possibly null) and the sending script (possibly null); it
 * is decoded into a closed enumeration and run against the registry state.
 * Every command that addresses an inventory resolves it through the pool
 * first, then the item inside it; a miss gives the command's sentinel, and
 * anything that throws on the way is caught and answered with null.
 */
module Dispatcher {
  import opened Values
  import opened Items
  import opened Inventories
  import opened Events

  /** The commands that act on one resolved item and answer with a boolean. */
  datatype ItemOp =
    | AddTagOp | RemoveTagOp | HasTagOp
    | AddPopupOp | RemovePopupOp | HasPopupOp
    | AddIconOp | RemoveIconOp
    | SetTooltipOp
    | SetKeepOnUnloadOp

  datatype Command =
    | GetPlayerInventoryId
    | GetFreeSlots
    | AddNewItem
    | RemoveItemCmd
    | DoesItemExist
    | OnItem(op: ItemOp)
    | SubscribeCmd(kind: EventKind)
    | UnsubscribeCmd(kind: EventKind)

  /** The command string a caller sends. */
  function Name(c: Command): string
  {
    match c
    case GetPlayerInventoryId => "GET_PLAYER_INVENTORY_ID"
    case GetFreeSlots => "GET_AMOUNT_OF_FREE_SLOTS_IN_INVENTORY"
    case AddNewItem => "ADD_NEW_ITEM_TO_INVENTORY"
    case RemoveItemCmd => "REMOVE_ITEM_FROM_INVENTORY"
    case DoesItemExist => "DOES_ITEM_EXISTS_IN_INVENTORY"
    case OnItem(AddTagOp) => "ADD_TAG_TO_ITEM"
    case OnItem(RemoveTagOp) => "REMOVE_TAG_FROM_ITEM"
    case OnItem(HasTagOp) => "DOES_ITEM_HAVE_TAG"
    case OnItem(AddPopupOp) => "ADD_POPUP_ITEM_TO_ITEM"
    case OnItem(RemovePopupOp) => "REMOVE_POPUP_ITEM_FROM_ITEM"
    case OnItem(HasPopupOp) => "DOES_ITEM_HAVE_POPUP_ITEM"
    case OnItem(AddIconOp) => "ADD_ICON_TO_ITEM"
    case OnItem(RemoveIconOp) => "REMOVE_ICON_FROM_ITEM"
    case OnItem(SetTooltipOp) => "SET_ITEM_TOOLTIP"
    case OnItem(SetKeepOnUnloadOp) => "SET_ITEM_NOT_REMOVED_FROM_INVENTORY_ON_MOD_UNLOAD"
    case SubscribeCmd(DraggedOut) => "SUBSCRIBE_TO_ON_ITEM_DRAGGED_OUT_EVENT_FOR_ITEM"
    case UnsubscribeCmd(DraggedOut) => "UNSUBSCRIBE_FROM_ON_ITEM_DRAGGED_OUT_EVENT_FOR_ITEM"
    case SubscribeCmd(DraggedToNewSlot) => "SUBSCRIBE_TO_ON_ITEM_DRAGGED_TO_NEW_SLOT_EVENT_FOR_ITEM"
    case UnsubscribeCmd(DraggedToNewSlot) => "UNSUBSCRIBE_FROM_ON_ITEM_DRAGGED_TO_NEW_SLOT_EVENT_FOR_ITEM"
    case SubscribeCmd(ItemClick) => "SUBSCRIBE_TO_ON_ITEM_CLICK_EVENT_FOR_ITEM"
    case UnsubscribeCmd(ItemClick) => "UNSUBSCRIBE_FROM_ON_ITEM_CLICK_EVENT_FOR_ITEM"
    case SubscribeCmd(PopupItemClick) => "SUBSCRIBE_TO_ON_POPUP_ITEM_CLICK_EVENT_FOR_ITEM"
    case UnsubscribeCmd(PopupItemClick) => "UNSUBSCRIBE_FROM_ON_POPUP_ITEM_CLICK_EVENT_FOR_ITEM"
  }

  /**
   * The string switch of SendScriptCommand: the unique command with that
   * name, if any. The names are compared within length bands (under 22
   * characters, under 40, under 50, the rest), which keeps each comparison
   * chain short.
   */
  function Parse(s: string): (r: Option<Command>)
    ensures r.Some? ==> Name(r.value) == s
  {
    if |s| < 22 then
      if s == Name(OnItem(AddTagOp)) then Some(OnItem(AddTagOp))
      else if s == Name(OnItem(AddIconOp)) then Some(OnItem(AddIconOp))
      else if s == Name(OnItem(SetTooltipOp)) then Some(OnItem(SetTooltipOp))
      else if s == Name(OnItem(HasTagOp)) then Some(OnItem(HasTagOp))
      else if s == Name(OnItem(RemoveTagOp)) then Some(OnItem(RemoveTagOp))
      else if s == Name(OnItem(RemoveIconOp)) then Some(OnItem(RemoveIconOp))
      else None
    else if |s| < 40 then
      if s == Name(OnItem(AddPopupOp)) then Some(OnItem(AddPopupOp))
      else if s == Name(GetPlayerInventoryId) then Some(GetPlayerInventoryId)
      else if s == Name(AddNewItem) then Some(AddNewItem)
      else if s == Name(OnItem(HasPopupOp)) then Some(OnItem(HasPopupOp))
      else if s == Name(RemoveItemCmd) then Some(RemoveItemCmd)
      else if s == Name(OnItem(RemovePopupOp)) then Some(OnItem(RemovePopupOp))
      else if s == Name(DoesItemExist) then Some(DoesItemExist)
      else if s == Name(GetFreeSlots) then Some(GetFreeSlots)
      else None
    else if |s| < 50 then
      if s == Name(SubscribeCmd(DraggedOut)) then Some(SubscribeCmd(DraggedOut))
      else if s == Name(SubscribeCmd(PopupItemClick)) then Some(SubscribeCmd(PopupItemClick))
      else if s == Name(SubscribeCmd(ItemClick)) then Some(SubscribeCmd(ItemClick))
      else if s == Name(UnsubscribeCmd(ItemClick)) then Some(UnsubscribeCmd(ItemClick))
      else if s == Name(OnItem(SetKeepOnUnloadOp)) then Some(OnItem(SetKeepOnUnloadOp))
      else None
    else
      if s == Name(UnsubscribeCmd(DraggedOut)) then Some(UnsubscribeCmd(DraggedOut))
      else if s == Name(UnsubscribeCmd(PopupItemClick)) then Some(UnsubscribeCmd(PopupItemClick))
      else if s == Name(SubscribeCmd(DraggedToNewSlot)) then Some(SubscribeCmd(DraggedToNewSlot))
      else if s == Name(UnsubscribeCmd(DraggedToNewSlot)) then Some(UnsubscribeCmd(DraggedToNewSlot))
      else None
  }

  /** Every name in the catalogue decodes to its own command. */
  lemma ParseName(c: Command)
    ensures Parse(Name(c)) == Some(c)
  {
    match c
    case GetPlayerInventoryId => ParseGetPlayerInventoryIdName();
    case GetFreeSlots => ParseGetFreeSlotsName();
    case AddNewItem => ParseAddNewItemName();
    case RemoveItemCmd => ParseRemoveItemCmdName();
    case DoesItemExist => ParseDoesItemExistName();
    case OnItem(AddTagOp) => ParseShortName(c);
    case OnItem(RemoveTagOp) => ParseShortName(c);
    case OnItem(HasTagOp) => ParseShortName(c);
    case OnItem(AddPopupOp) => ParseAddPopupName();
    case OnItem(RemovePopupOp) => ParseRemovePopupName();
    case OnItem(HasPopupOp) => ParseHasPopupName();
    case OnItem(AddIconOp) => ParseShortName(c);
    case OnItem(RemoveIconOp) => ParseShortName(c);
    case OnItem(SetTooltipOp) => ParseShortName(c);
    case OnItem(SetKeepOnUnloadOp) => ParseSetKeepOnUnloadName();
    case SubscribeCmd(DraggedOut) => ParseSubscribeDraggedOutName();
    case UnsubscribeCmd(DraggedOut) => ParseUnsubscribeDraggedOutName();
    case SubscribeCmd(DraggedToNewSlot) => ParseSubscribeDraggedToNewSlotName();
    case UnsubscribeCmd(DraggedToNewSlot) => ParseUnsubscribeDraggedToNewSlotName();
    case SubscribeCmd(ItemClick) => ParseSubscribeItemClickName();
    case UnsubscribeCmd(ItemClick) => ParseUnsubscribeItemClickName();
    case SubscribeCmd(PopupItemClick) => ParseSubscribePopupItemClickName();
    case UnsubscribeCmd(PopupItemClick) => ParseUnsubscribePopupItemClickName();
  }

  lemma ParseShortName(c: Command)
    requires c in {OnItem(AddTagOp), OnItem(AddIconOp), OnItem(SetTooltipOp), OnItem(HasTagOp), OnItem(RemoveTagOp), OnItem(RemoveIconOp)}
    ensures Parse(Name(c)) == Some(c)
  {
  }

  lemma ParseGetPlayerInventoryIdName()
    ensures Parse(Name(GetPlayerInventoryId)) == Some(GetPlayerInventoryId)
  {
    assert Name(GetPlayerInventoryId) == "GET_PLAYER_INVENTORY_ID";
  }

  lemma ParseGetFreeSlotsName()
    ensures Parse(Name(GetFreeSlots)) == Some(GetFreeSlots)
  {
    assert Name(GetFreeSlots) == "GET_AMOUNT_OF_FREE_SLOTS_IN_INVENTORY";
  }

  lemma ParseAddNewItemName()
    ensures Parse(Name(AddNewItem)) == Some(AddNewItem)
  {
    assert Name(AddNewItem) == "ADD_NEW_ITEM_TO_INVENTORY";
  }

  lemma ParseRemoveItemCmdName()
    ensures Parse(Name(RemoveItemCmd)) == Some(RemoveItemCmd)
  {
    assert Name(RemoveItemCmd) == "REMOVE_ITEM_FROM_INVENTORY";
  }

  lemma ParseDoesItemExistName()
    ensures Parse(Name(DoesItemExist)) == Some(DoesItemExist)
  {
    assert Name(DoesItemExist) == "DOES_ITEM_EXISTS_IN_INVENTORY";
  }

  lemma ParseAddPopupName()
    ensures Parse(Name(OnItem(AddPopupOp))) == Some(OnItem(AddPopupOp))
  {
    assert Name(OnItem(AddPopupOp)) == "ADD_POPUP_ITEM_TO_ITEM";
  }

  lemma ParseRemovePopupName()
    ensures Parse(Name(OnItem(RemovePopupOp))) == Some(OnItem(RemovePopupOp))
  {
    assert Name(OnItem(RemovePopupOp)) == "REMOVE_POPUP_ITEM_FROM_ITEM";
  }

  lemma ParseHasPopupName()
    ensures Parse(Name(OnItem(HasPopupOp))) == Some(OnItem(HasPopupOp))
  {
    assert Name(OnItem(HasPopupOp)) == "DOES_ITEM_HAVE_POPUP_ITEM";
  }

  lemma ParseSetKeepOnUnloadName()
    ensures Parse(Name(OnItem(SetKeepOnUnloadOp))) == Some(OnItem(SetKeepOnUnloadOp))
  {
    assert Name(OnItem(SetKeepOnUnloadOp)) == "SET_ITEM_NOT_REMOVED_FROM_INVENTORY_ON_MOD_UNLOAD";
  }

  lemma ParseSubscribeDraggedOutName()
    ensures Parse(Name(SubscribeCmd(DraggedOut))) == Some(SubscribeCmd(DraggedOut))
  {
    assert Name(SubscribeCmd(DraggedOut)) == "SUBSCRIBE_TO_ON_ITEM_DRAGGED_OUT_EVENT_FOR_ITEM";
  }

  lemma ParseUnsubscribeDraggedOutName()
    ensures Parse(Name(UnsubscribeCmd(DraggedOut))) == Some(UnsubscribeCmd(DraggedOut))
  {
    assert Name(UnsubscribeCmd(DraggedOut)) == "UNSUBSCRIBE_FROM_ON_ITEM_DRAGGED_OUT_EVENT_FOR_ITEM";
  }

  lemma ParseSubscribeDraggedToNewSlotName()
    ensures Parse(Name(SubscribeCmd(DraggedToNewSlot))) == Some(SubscribeCmd(DraggedToNewSlot))
  {
    assert Name(SubscribeCmd(DraggedToNewSlot)) == "SUBSCRIBE_TO_ON_ITEM_DRAGGED_TO_NEW_SLOT_EVENT_FOR_ITEM";
  }

  lemma ParseUnsubscribeDraggedToNewSlotName()
    ensures Parse(Name(UnsubscribeCmd(DraggedToNewSlot))) == Some(UnsubscribeCmd(DraggedToNewSlot))
  {
    assert Name(UnsubscribeCmd(DraggedToNewSlot)) == "UNSUBSCRIBE_FROM_ON_ITEM_DRAGGED_TO_NEW_SLOT_EVENT_FOR_ITEM";
  }

  lemma ParseSubscribeItemClickName()
    ensures Parse(Name(SubscribeCmd(ItemClick))) == Some(SubscribeCmd(ItemClick))
  {
    assert Name(SubscribeCmd(ItemClick)) == "SUBSCRIBE_TO_ON_ITEM_CLICK_EVENT_FOR_ITEM";
  }

  lemma ParseUnsubscribeItemClickName()
    ensures Parse(Name(UnsubscribeCmd(ItemClick))) == Some(UnsubscribeCmd(ItemClick))
  {
    assert Name(UnsubscribeCmd(ItemClick)) == "UNSUBSCRIBE_FROM_ON_ITEM_CLICK_EVENT_FOR_ITEM";
  }

  lemma ParseSubscribePopupItemClickName()
    ensures Parse(Name(SubscribeCmd(PopupItemClick))) == Some(SubscribeCmd(PopupItemClick))
  {
    assert Name(SubscribeCmd(PopupItemClick)) == "SUBSCRIBE_TO_ON_POPUP_ITEM_CLICK_EVENT_FOR_ITEM";
  }

  lemma ParseUnsubscribePopupItemClickName()
    ensures Parse(Name(UnsubscribeCmd(PopupItemClick))) == Some(UnsubscribeCmd(PopupItemClick))
  {
    assert Name(UnsubscribeCmd(PopupItemClick)) == "UNSUBSCRIBE_FROM_ON_POPUP_ITEM_CLICK_EVENT_FOR_ITEM";
  }

  /** The boxed object a command handler returns; RNull is null. */
  datatype Reply = RNull | RBool(b: bool) | RInt(i: int) | RGuid(g: Guid)

  /**
   * The registry state the dispatcher sees. `pool` is None before the
   * script is initialised and after it is torn down; `nextId` is the
   * identity the next constructed item receives; `iconCtorFound` records
   * whether the reflective texture constructor lookup succeeded.
   */
  datatype State = State(
    pool: Option<map<Guid, Inventory>>,
    player: Option<Guid>,
    queue: seq<Delivery>,
    nextId: Guid,
    iconCtorFound: bool)

  /**
   * The registry invariant: every inventory is filed under its id and is
   * valid, item ids are non-empty, already issued, and held by at most one
   * inventory, and the player inventory is registered.
   */
  predicate Valid(st: State)
  {
    && EmptyGuid < st.nextId
    && (st.player.Some? ==> st.pool.Some? && st.player.value in st.pool.value)
    && (st.pool.Some? ==> PoolValid(st.pool.value, st.nextId))
  }

  predicate PoolValid(pool: map<Guid, Inventory>, nextId: Guid)
  {
    && (forall i :: i in pool ==> pool[i].id == i && Inventories.Valid(pool[i]))
    && (forall i, k :: i in pool && k in pool[i].items ==> EmptyGuid < k < nextId)
    && (forall i, j :: i in pool && j in pool && i != j ==> pool[i].items.Keys !! pool[j].items.Keys)
  }

  /** FindInventory: a null pool throws; a missing id is null. */
  function FindInventory(st: State, id: Guid): (r: Outcome<Option<Inventory>>)
    ensures r.Ok? <==> st.pool.Some?
    ensures r.Ok? ==> (r.value.Some? <==> id in st.pool.value)
    ensures r.Ok? && r.value.Some? ==> r.value.value == st.pool.value[id]
  {
    if st.pool.None? then Fault
    else if id in st.pool.value then Ok(Some(st.pool.value[id]))
    else Ok(None)
  }

  /** Writes an inventory back into the pool. */
  function Store(st: State, id: Guid, inv: Inventory): State
    requires st.pool.Some?
  {
    st.(pool := Some(st.pool.value[id := inv]))
  }

  /** Writes an item back into the inventory filed under `inventoryId`, under the key `itemId`. */
  function StoreItem(st: State, inventoryId: Guid, itemId: Guid, item: Item): State
    requires st.pool.Some? && inventoryId in st.pool.value
  {
    var inv := st.pool.value[inventoryId];
    Store(st, inventoryId, inv.(items := inv.items[itemId := item]))
  }

  /** Where an item-addressing command found its item. */
  datatype Location = Location(inventoryId: Guid, itemId: Guid, item: Item)

  /**
   * The two-stage lookup shared by the item commands: args[0] is cast and
   * resolved through the pool, and only then args[1] is cast and resolved
   * inside that inventory.
   */
  function ResolveItem(st: State, args: seq<Value>): (r: Outcome<Option<Location>>)
    ensures r.Ok? && r.value.Some? ==>
      && st.pool.Some? && |args| >= 2
      && args[0] == VGuid(r.value.value.inventoryId) && r.value.value.inventoryId in st.pool.value
      && args[1] == VGuid(r.value.value.itemId) && r.value.value.itemId in st.pool.value[r.value.value.inventoryId].items
      && r.value.value.item == st.pool.value[r.value.value.inventoryId].items[r.value.value.itemId]
  {
    var inventoryId :- GuidArg(args, 0);
    var inv :- FindInventory(st, inventoryId);
    if inv.None? then Ok(None)
    else
      var itemId :- GuidArg(args, 1);
      match GetItem(inv.value, itemId)
      case None => Ok(None)
      case Some(item) => Ok(Some(Location(inventoryId, itemId, item)))
  }

  /** Convert.ToString(args[i]). */
  function TextArg(args: seq<Value>, i: nat): Outcome<string>
  {
    var v :- Arg(args, i);
    Ok(ToText(v))
  }

  /** fromScript.ID: a null sender throws. */
  function SenderId(sender: Option<Guid>): Outcome<Guid>
  {
    if sender.Some? then Ok(sender.value) else Fault
  }

  /** The body of an item command once its item is found: the new item and the boolean reply. */
  function ApplyItemOp(op: ItemOp, item: Item, args: seq<Value>, iconCtorFound: bool): (r: Outcome<(Item, bool)>)
    ensures r.Ok? ==> r.value.0.id == item.id && r.value.0.hash == item.hash
  {
    match op
    case AddTagOp =>
      var key :- TextArg(args, 2);
      if key in item.tags then Ok((item, false))
      else
        var v :- Arg(args, 3);
        var (tags, ok) := AddTag(item.tags, key, v);
        Ok((item.(tags := tags), ok))
    case RemoveTagOp =>
      var key :- TextArg(args, 2);
      var (tags, ok) := RemoveTag(item.tags, key);
      Ok((item.(tags := tags), ok))
    case HasTagOp =>
      var key :- TextArg(args, 2);
      Ok((item, key in item.tags))
    case AddPopupOp =>
      var name :- TextArg(args, 2);
      var (popups, ok) := AddPopup(item.popups, name);
      Ok((item.(popups := popups), ok))
    case RemovePopupOp =>
      var name :- TextArg(args, 2);
      var (popups, ok) := RemovePopup(item.popups, name);
      Ok((item.(popups := popups), ok))
    case HasPopupOp =>
      var name :- TextArg(args, 2);
      Ok((item, name in item.popups))
    case AddIconOp =>
      var textureArg :- Arg(args, 2);
      var texture :- UnboxPtr(textureArg);
      var widthArg :- Arg(args, 3);
      var width :- ToInt32(widthArg);
      var heightArg :- Arg(args, 4);
      var height :- ToInt32(heightArg);
      if !iconCtorFound then Fault
      else Ok((item.(icon := Some(Icon(texture, width, height))), true))
    case RemoveIconOp =>
      Ok((item.(icon := None), true))
    case SetTooltipOp =>
      var text :- TextArg(args, 2);
      Ok((item.(tooltip := Some(text)), true))
    case SetKeepOnUnloadOp =>
      var flagArg :- Arg(args, 2);
      var flag :- ToBoolean(flagArg);
      var tags := if flag then AddTag(item.tags, KeepOnUnloadTag, VNull).0
                  else RemoveTag(item.tags, KeepOnUnloadTag).0;
      Ok((item.(tags := tags), true))
  }

  function RunItemCommand(st: State, op: ItemOp, args: Option<seq<Value>>): Outcome<(State, Reply)>
  {
    if args.None? then Ok((st, RBool(false)))
    else
      var found :- ResolveItem(st, args.value);
      match found
      case None => Ok((st, RBool(false)))
      case Some(loc) =>
        var res :- ApplyItemOp(op, loc.item, args.value, st.iconCtorFound);
        Ok((StoreItem(st, loc.inventoryId, loc.itemId, res.0), RBool(res.1)))
  }

  /** The hash and the five display texts ADD_NEW_ITEM_TO_INVENTORY reads from args[1..6]. */
  function NewItemFields(args: seq<Value>, id: Guid): Outcome<Item>
  {
    var hashArg :- Arg(args, 1);
    var hash :- ToUInt32(hashArg);
    var button :- TextArg(args, 2);
    var topLeft :- TextArg(args, 3);
    var topRight :- TextArg(args, 4);
    var bottomLeft :- TextArg(args, 5);
    var bottomRight :- TextArg(args, 6);
    Ok(NewItem(id, hash).(
      buttonText := Some(button), topLeftText := Some(topLeft), topRightText := Some(topRight),
      bottomLeftText := Some(bottomLeft), bottomRightText := Some(bottomRight)))
  }

  /**
   * Places a freshly constructed item and tags it with its owner. The item
   * is placed before fromScript.ID is read, so a null sender throws with the
   * item already in place.
   */
  function PlaceNewItem(st: State, inventoryId: Guid, item: Item, sender: Option<Guid>): (r: (State, Reply))
    requires st.pool.Some? && inventoryId in st.pool.value
  {
    var (placed, ok) := AddItem(st.pool.value[inventoryId], item);
    if !ok then (st, RGuid(EmptyGuid))
    else if sender.None? then (Store(st, inventoryId, placed), RNull)
    else
      var tagged := item.(tags := AddTag(item.tags, CustomItemTag, VGuid(sender.value)).0);
      (Store(st, inventoryId, PutItem(placed, tagged)), RGuid(item.id))
  }

  function RunAddNewItem(st: State, sender: Option<Guid>, args: Option<seq<Value>>): Outcome<(State, Reply)>
  {
    if args.None? then Ok((st, RGuid(EmptyGuid)))
    else
      var inventoryId :- GuidArg(args.value, 0);
      var inv :- FindInventory(st, inventoryId);
      if inv.None? || FreeSlots(inv.value) == 0 then Ok((st, RGuid(EmptyGuid)))
      else
        var item :- NewItemFields(args.value, st.nextId);
        Ok(PlaceNewItem(st.(nextId := st.nextId + 1), inventoryId, item, sender))
  }

  function RunSubscribe(st: State, sender: Option<Guid>, kind: EventKind, args: Option<seq<Value>>): Outcome<(State, Reply)>
  {
    if args.None? then Ok((st, RBool(false)))
    else
      var inventoryId :- GuidArg(args.value, 0);
      var itemId :- GuidArg(args.value, 1);
      var script :- SenderId(sender);
      var inv :- FindInventory(st, inventoryId);
      if inv.None? then Ok((st, RBool(false)))
      else
        match GetItem(inv.value, itemId)
        case None => Ok((st, RBool(false)))
        case Some(item) =>
          var (item', ok) := Subscribe(item, kind, script);
          Ok((StoreItem(st, inventoryId, itemId, item'), RBool(ok)))
  }

  function RunUnsubscribe(st: State, kind: EventKind, args: Option<seq<Value>>): Outcome<(State, Reply)>
  {
    if args.None? then Ok((st, RBool(false)))
    else
      var inventoryId :- GuidArg(args.value, 0);
      var itemId :- GuidArg(args.value, 1);
      var inv :- FindInventory(st, inventoryId);
      if inv.None? then Ok((st, RBool(false)))
      else
        match GetItem(inv.value, itemId)
        case None => Ok((st, RBool(false)))
        case Some(item) =>
          var (item', ok) := Unsubscribe(item, kind);
          Ok((StoreItem(st, inventoryId, itemId, item'), RBool(ok)))
  }

  /** One decoded command; Fault is an exception inside the handler. */
  function Run(st: State, sender: Option<Guid>, c: Command, args: Option<seq<Value>>): Outcome<(State, Reply)>
  {
    match c
    case GetPlayerInventoryId =>
      Ok((st, RGuid(if st.player.Some? then st.player.value else EmptyGuid)))
    case GetFreeSlots =>
      if args.None? then Ok((st, RInt(-1)))
      else
        var inventoryId :- GuidArg(args.value, 0);
        var inv :- FindInventory(st, inventoryId);
        Ok((st, RInt(if inv.Some? then FreeSlots(inv.value) else 0)))
    case AddNewItem =>
      RunAddNewItem(st, sender, args)
    case RemoveItemCmd =>
      if args.None? then Ok((st, RBool(false)))
      else
        var inventoryId :- GuidArg(args.value, 0);
        var inv :- FindInventory(st, inventoryId);
        if inv.None? then Ok((st, RBool(false)))
        else
          var itemId :- GuidArg(args.value, 1);
          var (after, ok) := RemoveItem(inv.value, itemId);
          Ok((Store(st, inventoryId, after), RBool(ok)))
    case DoesItemExist =>
      // No null check here: args[0] on a null array throws.
      if args.None? then Fault
      else
        var inventoryId :- GuidArg(args.value, 0);
        var inv :- FindInventory(st, inventoryId);
        if inv.None? then Ok((st, RBool(false)))
        else
          var itemId :- GuidArg(args.value, 1);
          Ok((st, RBool(itemId in inv.value.items)))
    case OnItem(op) =>
      RunItemCommand(st, op, args)
    case SubscribeCmd(kind) =>
      RunSubscribe(st, sender, kind, args)
    case UnsubscribeCmd(kind) =>
      RunUnsubscribe(st, kind, args)
  }

  /** Frame of every command: only item maps inside existing inventories (and the id counter) may change. */
  predicate Framed(st: State, st': State)
  {
    && st'.queue == st.queue
    && st'.player == st.player
    && st'.iconCtorFound == st.iconCtorFound
    && st.nextId <= st'.nextId
    && (st'.pool.Some? <==> st.pool.Some?)
    && (st.pool.Some? ==>
          && st'.pool.value.Keys == st.pool.value.Keys
          && forall i :: i in st.pool.value ==> st'.pool.value[i].(items := st.pool.value[i].items) == st.pool.value[i])
  }

  /**
   * One recognised command inside the catch-all of
   * Main_ScriptCommandReceived: a caught exception answers null and changes
   * nothing; no command queues work.
   */
  function Execute(st: State, sender: Option<Guid>, c: Command, args: Option<seq<Value>>): (r: (State, Reply))
    ensures Framed(st, r.0)
    ensures Run(st, sender, c, args).Fault? ==> r == (st, RNull)
  {
    match Run(st, sender, c, args)
    case Ok(res) => assert Framed(st, res.0) by { RunIsFramed(st, sender, c, args); } res
    case Fault => (st, RNull)
  }

  /** Main_ScriptCommandReceived: the string switch, then the command; an unknown name answers null. */
  function Dispatch(st: State, sender: Option<Guid>, command: string, args: Option<seq<Value>>): (r: (State, Reply))
    ensures Framed(st, r.0)
    ensures Parse(command).None? ==> r == (st, RNull)
  {
    match Parse(command)
    case None => (st, RNull)
    case Some(c) => Execute(st, sender, c, args)
  }

  /** Sending a command by its catalogue name runs exactly that command. */
  lemma DispatchByName(st: State, sender: Option<Guid>, c: Command, args: Option<seq<Value>>)
    ensures Dispatch(st, sender, Name(c), args) == Execute(st, sender, c, args)
  {
    ParseName(c);
  }

  lemma StoreItemIsFramed(st: State, inventoryId: Guid, itemId: Guid, item: Item)
    requires st.pool.Some? && inventoryId in st.pool.value
    ensures Framed(st, StoreItem(st, inventoryId, itemId, item))
  {
  }

  lemma RunIsFramed(st: State, sender: Option<Guid>, c: Command, args: Option<seq<Value>>)
    requires Run(st, sender, c, args).Ok?
    ensures Framed(st, Run(st, sender, c, args).value.0)
  {
    match c
    case OnItem(op) =>
      if args.Some? {
        var found := ResolveItem(st, args.value).value;
        if found.Some? {
          StoreItemIsFramed(st, found.value.inventoryId, found.value.itemId,
                            ApplyItemOp(op, found.value.item, args.value, st.iconCtorFound).value.0);
        }
      }
    case SubscribeCmd(kind) =>
      if args.Some? {
        var inventoryId := GuidArg(args.value, 0).value;
        var itemId := GuidArg(args.value, 1).value;
        if inventoryId in st.pool.value && itemId in st.pool.value[inventoryId].items {
          var item := st.pool.value[inventoryId].items[itemId];
          StoreItemIsFramed(st, inventoryId, itemId, Subscribe(item, kind, sender.value).0);
        }
      }
    case UnsubscribeCmd(kind) =>
      if args.Some? {
        var inventoryId := GuidArg(args.value, 0).value;
        var itemId := GuidArg(args.value, 1).value;
        if inventoryId in st.pool.value && itemId in st.pool.value[inventoryId].items {
          var item := st.pool.value[inventoryId].items[itemId];
          StoreItemIsFramed(st, inventoryId, itemId, Unsubscribe(item, kind).0);
        }
      }
    case AddNewItem =>
      AddNewItemIsFramed(st, sender, args);
    case _ =>
  }

  lemma AddNewItemIsFramed(st: State, sender: Option<Guid>, args: Option<seq<Value>>)
    requires RunAddNewItem(st, sender, args).Ok?
    ensures Framed(st, RunAddNewItem(st, sender, args).value.0)
  {
    if args.Some? {
      var inventoryId := GuidArg(args.value, 0).value;
      if inventoryId in st.pool.value && FreeSlots(st.pool.value[inventoryId]) != 0 {
        var item := NewItemFields(args.value, st.nextId).value;
        PlaceNewItemIsFramed(st.(nextId := st.nextId + 1), inventoryId, item, sender);
      }
    }
  }

  lemma PlaceNewItemIsFramed(st: State, inventoryId: Guid, item: Item, sender: Option<Guid>)
    requires st.pool.Some? && inventoryId in st.pool.value
    ensures Framed(st, PlaceNewItem(st, inventoryId, item, sender).0)
  {
  }
}

=== FILE: dispatcher_facts.dfy ===
/**
 * Properties of the command dispatcher: the uniform two-stage lookup and
 * its sentinels, the add-item, tag, popup, flag and subscription commands,
 * and preservation of the registry invariant.
 */
module DispatcherFacts {
  import opened Values
  import opened Items
  import opened Inventories
  import opened Events
  import opened Dispatcher

  /** The commands whose second argument names an item. */
  predicate AddressesItem(c: Command)
  {
    c.RemoveItemCmd? || c.DoesItemExist? || c.OnItem? || c.SubscribeCmd? || c.UnsubscribeCmd?
  }

  /** The answer a command gives when its inventory or item is not found. */
  function Sentinel(c: Command): Reply
  {
    match c
    case GetFreeSlots => RInt(0)
    case AddNewItem => RGuid(EmptyGuid)
    case _ => RBool(false)
  }

  /** args[0] and args[1] are GUIDs naming an inventory in the pool and an item in it. */
  predicate Located(st: State, a: seq<Value>)
  {
    && st.pool.Some? && |a| >= 2 && a[0].VGuid? && a[1].VGuid?
    && a[0].g in st.pool.value && a[1].g in st.pool.value[a[0].g].items
  }

  function LocatedItem(st: State, a: seq<Value>): Item
    requires Located(st, a)
  {
    st.pool.value[a[0].g].items[a[1].g]
  }

  lemma StoreUnchanged(st: State, id: Guid)
    requires st.pool.Some? && id in st.pool.value
    ensures Store(st, id, st.pool.value[id]) == st
  {
    assert st.pool.value[id := st.pool.value[id]] == st.pool.value;
  }

  lemma StoreItemUnchanged(st: State, a: seq<Value>)
    requires Located(st, a)
    ensures StoreItem(st, a[0].g, a[1].g, LocatedItem(st, a)) == st
  {
    var inv := st.pool.value[a[0].g];
    assert inv.items[a[1].g := LocatedItem(st, a)] == inv.items;
    StoreUnchanged(st, a[0].g);
  }

  /**
   * A miss at either lookup stage answers the command's sentinel and leaves
   * the state unchanged; the stages are tried inventory first, then item.
   */
  lemma LookupMissIsSentinel(st: State, sender: Option<Guid>, c: Command, a: seq<Value>)
    requires !c.GetPlayerInventoryId?
    requires st.pool.Some? && |a| >= 2 && a[0].VGuid? && a[1].VGuid?
    requires c.SubscribeCmd? ==> sender.Some?
    requires a[0].g !in st.pool.value || (AddressesItem(c) && a[1].g !in st.pool.value[a[0].g].items)
    ensures Execute(st, sender, c, Some(a)) == (st, Sentinel(c))
  {
    if c.RemoveItemCmd? && a[0].g in st.pool.value {
      StoreUnchanged(st, a[0].g);
    }
  }

  /**
   * The inventory stage comes first: outside the subscription commands, an
   * unregistered inventory answers the sentinel whatever follows args[0],
   * even when no item argument was passed at all.
   */
  lemma InventoryMissIsSentinel(st: State, sender: Option<Guid>, c: Command, a: seq<Value>)
    requires !c.GetPlayerInventoryId? && !c.SubscribeCmd? && !c.UnsubscribeCmd?
    requires st.pool.Some? && |a| >= 1 && a[0].VGuid? && a[0].g !in st.pool.value
    ensures Execute(st, sender, c, Some(a)) == (st, Sentinel(c))
  {
  }

  /**
   * The subscription commands cast args[1] (and, to subscribe, read the
   * sender's id) before any lookup: a missing or non-GUID item argument, or
   * a subscribe from a null sender, is caught and answers null, whether or
   * not the inventory exists.
   */
  lemma SubscriptionArgsReadFirst(st: State, sender: Option<Guid>, c: Command, a: seq<Value>)
    requires c.SubscribeCmd? || c.UnsubscribeCmd?
    requires |a| < 2 || !a[1].VGuid? || (c.SubscribeCmd? && sender.None?)
    ensures Execute(st, sender, c, Some(a)) == (st, RNull)
  {
  }

  /** GET_AMOUNT_OF_FREE_SLOTS_IN_INVENTORY with a null argument array answers -1, not 0. */
  lemma FreeSlotsWithNullArgs(st: State, sender: Option<Guid>)
    ensures Execute(st, sender, GetFreeSlots, None) == (st, RInt(-1))
  {
  }

  /** GET_AMOUNT_OF_FREE_SLOTS_IN_INVENTORY on a registered inventory answers its free slot count. */
  lemma FreeSlotsFound(st: State, sender: Option<Guid>, a: seq<Value>)
    requires st.pool.Some? && |a| >= 1 && a[0].VGuid? && a[0].g in st.pool.value
    ensures Execute(st, sender, GetFreeSlots, Some(a)) == (st, RInt(FreeSlots(st.pool.value[a[0].g])))
  {
  }

  /** DOES_ITEM_EXISTS_IN_INVENTORY has no null check: a null argument array is caught and answers null. */
  lemma DoesItemExistWithNullArgs(st: State, sender: Option<Guid>)
    ensures Execute(st, sender, DoesItemExist, None) == (st, RNull)
  {
  }

  /** A command whose argument is not a GUID is caught and answers null, changing nothing. */
  lemma BadInventoryArgIsNull(st: State, sender: Option<Guid>, c: Command, a: seq<Value>)
    requires !c.GetPlayerInventoryId?
    requires |a| == 0 || !a[0].VGuid?
    ensures Execute(st, sender, c, Some(a)) == (st, RNull)
  {
  }

  /** ADD_NEW_ITEM_TO_INVENTORY on a full inventory answers Guid.Empty and adds nothing. */
  lemma AddNewItemWhenFull(st: State, sender: Option<Guid>, a: seq<Value>)
    requires st.pool.Some? && |a| >= 1 && a[0].VGuid? && a[0].g in st.pool.value
    requires FreeSlots(st.pool.value[a[0].g]) == 0
    ensures Execute(st, sender, AddNewItem, Some(a)) == (st, RGuid(EmptyGuid))
  {
  }

  /** The item ADD_NEW_ITEM_TO_INVENTORY builds from its arguments, before the owner tag. */
  function BuiltItem(a: seq<Value>, id: Guid): Item
    requires |a| >= 7 && ToUInt32(a[1]).Ok?
  {
    NewItem(id, ToUInt32(a[1]).value).(
      buttonText := Some(ToText(a[2])), topLeftText := Some(ToText(a[3])), topRightText := Some(ToText(a[4])),
      bottomLeftText := Some(ToText(a[5])), bottomRightText := Some(ToText(a[6])))
  }

  /**
   * ADD_NEW_ITEM_TO_INVENTORY with a free slot answers a new, previously
   * unused item id; exactly that item joins the addressed inventory, tagged
   * IS_CUSTOM_ITEM with the sender's script id, and nothing else changes.
   */
  lemma AddNewItemSucceeds(st: State, script: Guid, a: seq<Value>)
    requires Dispatcher.Valid(st) && st.pool.Some?
    requires |a| >= 7 && a[0].VGuid? && a[0].g in st.pool.value
    requires FreeSlots(st.pool.value[a[0].g]) > 0
    requires ToUInt32(a[1]).Ok?
    ensures var r := Execute(st, Some(script), AddNewItem, Some(a));
            var id := st.nextId;
            var pool := st.pool.value;
      && r.1 == RGuid(id) && id != EmptyGuid
      && (forall i :: i in pool ==> id !in pool[i].items)
      && r.0.pool.value[a[0].g].items
           == pool[a[0].g].items[id := BuiltItem(a, id).(tags := map[CustomItemTag := VGuid(script)])]
      && (forall i :: i in pool && i != a[0].g ==> r.0.pool.value[i] == pool[i])
      && r.0.nextId == id + 1
  {
    var id := st.nextId;
    var inv := st.pool.value[a[0].g];
    AddNewItemPlaces(st, Some(script), a);
    assert id !in inv.items;
    PlaceTagged(st.(nextId := id + 1), a[0].g, BuiltItem(a, id), script);
  }

  lemma PlaceTagged(st: State, i: Guid, item: Item, script: Guid)
    requires st.pool.Some? && i in st.pool.value
    requires FreeSlots(st.pool.value[i]) > 0 && item.id !in st.pool.value[i].items
    requires item.tags == map[]
    ensures var inv := st.pool.value[i];
      PlaceNewItem(st, i, item, Some(script))
        == (Store(st, i, inv.(items := inv.items[item.id := item.(tags := map[CustomItemTag := VGuid(script)])])),
            RGuid(item.id))
  {
    var inv := st.pool.value[i];
    var tagged := item.(tags := map[CustomItemTag := VGuid(script)]);
    assert inv.items[item.id := item][item.id := tagged] == inv.items[item.id := tagged];
  }

  /** ADD_NEW_ITEM_TO_INVENTORY from a null sender places the item, then the owner lookup throws: the answer is null. */
  lemma AddNewItemNullSender(st: State, a: seq<Value>)
    requires st.pool.Some?
    requires |a| >= 7 && a[0].VGuid? && a[0].g in st.pool.value
    requires FreeSlots(st.pool.value[a[0].g]) > 0
    requires st.nextId !in st.pool.value[a[0].g].items
    requires ToUInt32(a[1]).Ok?
    ensures var r := Execute(st, None, AddNewItem, Some(a));
      && r.1 == RNull
      && r.0.pool.value[a[0].g].items == st.pool.value[a[0].g].items[st.nextId := BuiltItem(a, st.nextId)]
      && (forall i :: i in st.pool.value && i != a[0].g ==> r.0.pool.value[i] == st.pool.value[i])
      && r.0.nextId == st.nextId + 1
  {
    AddNewItemPlaces(st, None, a);
  }

  /** Placing a new item, tagged or not, keeps the registry valid: its id is fresh. */
  lemma AddNewItemKeepsValid(st: State, sender: Option<Guid>, a: seq<Value>)
    requires Dispatcher.Valid(st) && st.pool.Some?
    requires |a| >= 7 && a[0].VGuid? && a[0].g in st.pool.value
    requires FreeSlots(st.pool.value[a[0].g]) > 0
    requires ToUInt32(a[1]).Ok?
    ensures Dispatcher.Valid(Execute(st, sender, AddNewItem, Some(a)).0)
  {
    AddNewItemPlaces(st, sender, a);
    PlaceNewItemKeepsValid(st, a[0].g, BuiltItem(a, st.nextId), sender);
  }

  /** PlaceNewItem, once the item fits, stores an inventory that gained exactly the fresh id. */
  lemma PlaceNewItemKeepsValid(st: State, i: Guid, item: Item, sender: Option<Guid>)
    requires Dispatcher.Valid(st) && st.pool.Some? && i in st.pool.value
    requires FreeSlots(st.pool.value[i]) > 0 && item.id == st.nextId
    ensures Dispatcher.Valid(PlaceNewItem(st.(nextId := st.nextId + 1), i, item, sender).0)
  {
    var inv := st.pool.value[i];
    assert item.id !in inv.items;
    AddItemTakesOneSlot(inv, item);
    var after := PlacedInventory(inv, item, sender);
    StoreFreshKeepsValid(st, i, after);
  }

  /** The inventory PlaceNewItem stores once the item fits. */
  function PlacedInventory(inv: Inventory, item: Item, sender: Option<Guid>): (r: Inventory)
    requires Inventories.Valid(inv) && AddItem(inv, item).1
    ensures r.id == inv.id && Inventories.Valid(r)
    ensures r.items.Keys == inv.items.Keys + {item.id}
  {
    AddItemTakesOneSlot(inv, item);
    var placed := AddItem(inv, item).0;
    if sender.None? then placed
    else PutItem(placed, item.(tags := AddTag(item.tags, CustomItemTag, VGuid(sender.value)).0))
  }

  /** Storing an inventory that gained exactly the next id keeps the registry valid. */
  lemma StoreFreshKeepsValid(st: State, i: Guid, after: Inventory)
    requires Dispatcher.Valid(st) && st.pool.Some? && i in st.pool.value
    requires after.id == i && Inventories.Valid(after)
    requires after.items.Keys == st.pool.value[i].items.Keys + {st.nextId}
    ensures Dispatcher.Valid(Store(st.(nextId := st.nextId + 1), i, after))
  {
    FreshPoolValid(st.pool.value, st.nextId, i, after);
  }

  /** A pool stays valid when one inventory gains exactly the next id, which the counter then passes. */
  lemma FreshPoolValid(pool: map<Guid, Inventory>, id: Guid, i: Guid, after: Inventory)
    requires EmptyGuid < id && PoolValid(pool, id) && i in pool
    requires after.id == i && Inventories.Valid(after)
    requires after.items.Keys == pool[i].items.Keys + {id}
    ensures PoolValid(pool[i := after], id + 1)
  {
    var pool' := pool[i := after];
    FreshEntriesValid(pool, pool', id, i, after);
    FreshIdsBounded(pool, pool', id, i, after);
    FreshIdsDisjoint(pool, pool', id, i, after);
  }

  /** The three parts of PoolValid for that pool, one lemma each. */
  lemma FreshEntriesValid(pool: map<Guid, Inventory>, pool': map<Guid, Inventory>, id: Guid, i: Guid, after: Inventory)
    requires PoolValid(pool, id) && i in pool && pool' == pool[i := after]
    requires after.id == i && Inventories.Valid(after)
    ensures forall j :: j in pool' ==> pool'[j].id == j && Inventories.Valid(pool'[j])
  {
  }

  lemma FreshIdsBounded(pool: map<Guid, Inventory>, pool': map<Guid, Inventory>, id: Guid, i: Guid, after: Inventory)
    requires EmptyGuid < id && PoolValid(pool, id) && i in pool && pool' == pool[i := after]
    requires after.items.Keys == pool[i].items.Keys + {id}
    ensures forall j, k :: j in pool' && k in pool'[j].items ==> EmptyGuid < k < id + 1
  {
    forall j, k | j in pool' && k in pool'[j].items
      ensures EmptyGuid < k < id + 1
    {
      if j != i || k != id {
        assert k in pool[j].items;
      }
    }
  }

  lemma FreshIdsDisjoint(pool: map<Guid, Inventory>, pool': map<Guid, Inventory>, id: Guid, i: Guid, after: Inventory)
    requires PoolValid(pool, id) && i in pool && pool' == pool[i := after]
    requires after.items.Keys == pool[i].items.Keys + {id}
    ensures forall j, j' :: j in pool' && j' in pool' && j != j' ==> pool'[j].items.Keys !! pool'[j'].items.Keys
  {
    forall j, j' | j in pool' && j' in pool' && j != j'
      ensures pool'[j].items.Keys !! pool'[j'].items.Keys
    {
      if j == i {
        assert id !in pool[j'].items && pool'[j'] == pool[j'];
      } else if j' == i {
        assert id !in pool[j].items && pool'[j] == pool[j];
      }
      assert pool[j].items.Keys !! pool[j'].items.Keys;
    }
  }

  lemma AddNewItemPlaces(st: State, sender: Option<Guid>, a: seq<Value>)
    requires st.pool.Some?
    requires |a| >= 7 && a[0].VGuid? && a[0].g in st.pool.value
    requires FreeSlots(st.pool.value[a[0].g]) > 0
    requires ToUInt32(a[1]).Ok?
    ensures Execute(st, sender, AddNewItem, Some(a))
         == PlaceNewItem(st.(nextId := st.nextId + 1), a[0].g, BuiltItem(a, st.nextId), sender)
  {
    assert NewItemFields(a, st.nextId) == Ok(BuiltItem(a, st.nextId));
  }

  /** Replacing an inventory by one holding a subset of its ids keeps the registry valid. */
  lemma ShrinkPreservesValid(st: State, i: Guid, after: Inventory)
    requires Dispatcher.Valid(st) && st.pool.Some? && i in st.pool.value
    requires after.id == i && Inventories.Valid(after)
    requires after.items.Keys <= st.pool.value[i].items.Keys
    ensures Dispatcher.Valid(Store(st, i, after))
  {
    var pool := st.pool.value;
    var pool' := pool[i := after];
    forall j, k | j in pool' && k in pool'[j].items
      ensures EmptyGuid < k < st.nextId
    {
      assert k in pool[j].items;
    }
    forall j, j' | j in pool' && j' in pool' && j != j'
      ensures pool'[j].items.Keys !! pool'[j'].items.Keys
    {
      assert pool[j].items.Keys !! pool[j'].items.Keys;
    }
  }

  /** Writing back a found item that kept its id keeps the registry valid. */
  lemma StoreItemPreservesValid(st: State, a: seq<Value>, item: Item)
    requires Dispatcher.Valid(st) && Located(st, a)
    requires item.id == LocatedItem(st, a).id
    ensures Dispatcher.Valid(StoreItem(st, a[0].g, a[1].g, item))
  {
    var inv := st.pool.value[a[0].g];
    ShrinkPreservesValid(st, a[0].g, PutItem(inv, item));
  }

  /** The item commands apply their body to the found item and write it back; a fault changes nothing. */
  lemma ItemCommandEffect(st: State, sender: Option<Guid>, op: ItemOp, a: seq<Value>)
    requires Located(st, a)
    ensures Execute(st, sender, OnItem(op), Some(a)) ==
      match ApplyItemOp(op, LocatedItem(st, a), a, st.iconCtorFound)
      case Ok(res) => (StoreItem(st, a[0].g, a[1].g, res.0), RBool(res.1))
      case Fault => (st, RNull)
  {
  }

  /**
   * ADD_TAG_TO_ITEM on a found item: a present key answers false and
   * overwrites nothing; an absent key is added with args[3] and no other tag
   * changes.
   */
  lemma AddTagCommand(st: State, sender: Option<Guid>, a: seq<Value>)
    requires Located(st, a) && |a| >= 4
    ensures var item := LocatedItem(st, a);
            var key := ToText(a[2]);
            var r := Execute(st, sender, OnItem(AddTagOp), Some(a));
      && (key in item.tags ==> r == (st, RBool(false)))
      && (key !in item.tags ==>
            r == (StoreItem(st, a[0].g, a[1].g, item.(tags := item.tags[key := a[3]])), RBool(true)))
  {
    ItemCommandEffect(st, sender, AddTagOp, a);
    StoreItemUnchanged(st, a);
  }

  /** REMOVE_TAG_FROM_ITEM on a found item: an absent key answers false and changes nothing; a present key alone is removed. */
  lemma RemoveTagCommand(st: State, sender: Option<Guid>, a: seq<Value>)
    requires Located(st, a) && |a| >= 3
    ensures var item := LocatedItem(st, a);
            var key := ToText(a[2]);
            var r := Execute(st, sender, OnItem(RemoveTagOp), Some(a));
      && (key !in item.tags ==> r == (st, RBool(false)))
      && (key in item.tags ==>
            r == (StoreItem(st, a[0].g, a[1].g, item.(tags := item.tags - {key})), RBool(true)))
  {
    ItemCommandEffect(st, sender, RemoveTagOp, a);
    StoreItemUnchanged(st, a);
  }

  /** DOES_ITEM_HAVE_TAG reports key membership and changes nothing. */
  lemma HasTagCommand(st: State, sender: Option<Guid>, a: seq<Value>)
    requires Located(st, a) && |a| >= 3
    ensures Execute(st, sender, OnItem(HasTagOp), Some(a))
         == (st, RBool(ToText(a[2]) in LocatedItem(st, a).tags))
  {
    ItemCommandEffect(st, sender, HasTagOp, a);
    StoreItemUnchanged(st, a);
  }

  /**
   * The popup entries behave as a set: a duplicate add and a missing
   * remove answer false and change nothing, otherwise exactly that entry is
   * added or removed, and the membership query reports membership.
   */
  lemma PopupCommands(st: State, sender: Option<Guid>, a: seq<Value>)
    requires Located(st, a) && |a| >= 3
    ensures var item := LocatedItem(st, a);
            var name := ToText(a[2]);
            var added := Execute(st, sender, OnItem(AddPopupOp), Some(a));
            var removed := Execute(st, sender, OnItem(RemovePopupOp), Some(a));
      && (name in item.popups ==> added == (st, RBool(false)))
      && (name !in item.popups ==>
            added == (StoreItem(st, a[0].g, a[1].g, item.(popups := item.popups + {name})), RBool(true)))
      && (name !in item.popups ==> removed == (st, RBool(false)))
      && (name in item.popups ==>
            removed == (StoreItem(st, a[0].g, a[1].g, item.(popups := item.popups - {name})), RBool(true)))
      && Execute(st, sender, OnItem(HasPopupOp), Some(a)) == (st, RBool(name in item.popups))
  {
    ItemCommandEffect(st, sender, AddPopupOp, a);
    ItemCommandEffect(st, sender, RemovePopupOp, a);
    ItemCommandEffect(st, sender, HasPopupOp, a);
    StoreItemUnchanged(st, a);
  }

  /**
   * SET_ITEM_NOT_REMOVED_FROM_INVENTORY_ON_MOD_UNLOAD answers true on a found
   * item; afterwards the marker tag is present exactly when the flag was
   * set, and no other tag changed.
   */
  lemma KeepOnUnloadCommand(st: State, sender: Option<Guid>, a: seq<Value>)
    requires Located(st, a) && |a| >= 3 && ToBoolean(a[2]).Ok?
    ensures var item := LocatedItem(st, a);
            var r := Execute(st, sender, OnItem(SetKeepOnUnloadOp), Some(a));
            var after := r.0.pool.value[a[0].g].items[a[1].g];
      && r.1 == RBool(true)
      && (KeepOnUnloadTag in after.tags <==> ToBoolean(a[2]).value)
      && (forall k :: k != KeepOnUnloadTag ==> (k in after.tags <==> k in item.tags))
      && (forall k :: k != KeepOnUnloadTag && k in item.tags ==> after.tags[k] == item.tags[k])
      && after.(tags := item.tags) == item
  {
    ItemCommandEffect(st, sender, SetKeepOnUnloadOp, a);
  }

  /** Subscribing to an event already subscribed to answers false; the first subscriber stays. */
  lemma SubscribeKeepsFirst(st: State, script: Guid, kind: EventKind, a: seq<Value>)
    requires Located(st, a)
    requires SubscriptionTag(kind) in LocatedItem(st, a).tags
    ensures Execute(st, Some(script), SubscribeCmd(kind), Some(a)) == (st, RBool(false))
  {
    StoreItemUnchanged(st, a);
  }

  /** A successful subscribe makes the sender the item's subscriber for that event. */
  lemma SubscribeRecordsSender(st: State, script: Guid, kind: EventKind, a: seq<Value>)
    requires Located(st, a) && script != EmptyGuid
    requires SubscriptionTag(kind) !in LocatedItem(st, a).tags
    ensures var r := Execute(st, Some(script), SubscribeCmd(kind), Some(a));
      && r.1 == RBool(true)
      && Subscriber(r.0.pool.value[a[0].g].items[a[1].g], kind) == Some(script)
  {
  }

  /** A successful subscribe followed by the matching unsubscribe restores the whole state. */
  lemma SubscribeUnsubscribeRoundTrip(st: State, sender: Option<Guid>, other: Option<Guid>, kind: EventKind, a: seq<Value>)
    requires Execute(st, sender, SubscribeCmd(kind), Some(a)).1 == RBool(true)
    ensures var st1 := Execute(st, sender, SubscribeCmd(kind), Some(a)).0;
            Execute(st1, other, UnsubscribeCmd(kind), Some(a)) == (st, RBool(true))
  {
    assert Located(st, a);
    var item := LocatedItem(st, a);
    var (item', ok) := Subscribe(item, kind, sender.value);
    assert ok;
    var st1 := StoreItem(st, a[0].g, a[1].g, item');
    assert Execute(st, sender, SubscribeCmd(kind), Some(a)).0 == st1;
    SubscribeThenUnsubscribe(item, kind, sender.value);
    assert Located(st1, a) && LocatedItem(st1, a) == item';
    var inv := st.pool.value[a[0].g];
    assert inv.items[a[1].g := item'][a[1].g := item] == inv.items;
    assert st.pool.value[a[0].g := inv.(items := inv.items[a[1].g := item'])][a[0].g := inv] == st.pool.value;
  }

  /** No command string, known or not, breaks the registry invariant. */
  lemma DispatchPreservesValid(st: State, sender: Option<Guid>, command: string, args: Option<seq<Value>>)
    requires Dispatcher.Valid(st)
    ensures Dispatcher.Valid(Dispatch(st, sender, command, args).0)
  {
    if Parse(command).Some? {
      ExecutePreservesValid(st, sender, Parse(command).value, args);
    }
  }

  /** No command breaks the registry invariant. */
  lemma ExecutePreservesValid(st: State, sender: Option<Guid>, c: Command, args: Option<seq<Value>>)
    requires Dispatcher.Valid(st)
    ensures Dispatcher.Valid(Execute(st, sender, c, args).0)
  {
    if args.None? || st.pool.None? || Run(st, sender, c, args).Fault? {
      return;
    }
    var a := args.value;
    match c
    case GetPlayerInventoryId =>
    case GetFreeSlots =>
    case DoesItemExist =>
    case AddNewItem =>
      if a[0].g in st.pool.value && FreeSlots(st.pool.value[a[0].g]) > 0 {
        AddNewItemKeepsValid(st, sender, a);
      }
    case RemoveItemCmd =>
      if a[0].g in st.pool.value {
        var inv := st.pool.value[a[0].g];
        var after := RemoveItem(inv, a[1].g).0;
        if a[1].g in inv.items {
          RemoveItemFreesOneSlot(inv, a[1].g);
        }
        ShrinkPreservesValid(st, a[0].g, after);
      }
    case OnItem(op) => RunItemCommandKeepsValid(st, op, a);
    case SubscribeCmd(kind) => RunSubscribeKeepsValid(st, sender, kind, a);
    case UnsubscribeCmd(kind) => RunUnsubscribeKeepsValid(st, kind, a);
  }

  lemma RunItemCommandKeepsValid(st: State, op: ItemOp, a: seq<Value>)
    requires Dispatcher.Valid(st) && RunItemCommand(st, op, Some(a)).Ok?
    ensures Dispatcher.Valid(RunItemCommand(st, op, Some(a)).value.0)
  {
    if Located(st, a) {
      var res := ApplyItemOp(op, LocatedItem(st, a), a, st.iconCtorFound);
      StoreItemPreservesValid(st, a, res.value.0);
    }
  }

  lemma RunSubscribeKeepsValid(st: State, sender: Option<Guid>, kind: EventKind, a: seq<Value>)
    requires Dispatcher.Valid(st) && RunSubscribe(st, sender, kind, Some(a)).Ok?
    ensures Dispatcher.Valid(RunSubscribe(st, sender, kind, Some(a)).value.0)
  {
    if Located(st, a) {
      StoreItemPreservesValid(st, a, Subscribe(LocatedItem(st, a), kind, sender.value).0);
    }
  }

  lemma RunUnsubscribeKeepsValid(st: State, kind: EventKind, a: seq<Value>)
    requires Dispatcher.Valid(st) && RunUnsubscribe(st, kind, Some(a)).Ok?
    ensures Dispatcher.Valid(RunUnsubscribe(st, kind, Some(a)).value.0)
  {
    if Located(st, a) {
      StoreItemPreservesValid(st, a, Unsubscribe(LocatedItem(st, a), kind).0);
    }
  }
}

=== FILE: events.dfy ===
/**
 * The event router. A subscription is a tag on the item whose value is the
 * subscribing script's id; a UI callback on a subscribed item enqueues one
 * delivery descriptor, and the queue is drained, in order, at the start of
 * the next tick.
 */
module Events {
  import opened Values
  import opened Items

  /** The four UI callbacks a script may subscribe to. */
  datatype EventKind = DraggedOut | DraggedToNewSlot | ItemClick | PopupItemClick

  /** The item tag that records a subscription to `kind`. */
  function SubscriptionTag(kind: EventKind): string
  {
    match kind
    case DraggedOut => "WANTS_ON_ITEM_DRAGGED_OUT_EVENTS"
    case DraggedToNewSlot => "WANTS_ON_ITEM_DRAGGED_TO_NEW_SLOT_EVENTS"
    case ItemClick => "WANTS_ON_ITEM_CLICK_EVENTS"
    case PopupItemClick => "WANTS_ON_POPUP_ITEM_CLICK_EVENTS"
  }

  /** The command sent to the subscriber when `kind` fires. */
  function NotificationCommand(kind: EventKind): string
  {
    match kind
    case DraggedOut => "PAC_ON_ITEM_DRAGGED_OUT"
    case DraggedToNewSlot => "PAC_ON_ITEM_DRAGGED_TO_NEW_SLOT"
    case ItemClick => "PAC_ON_ITEM_CLICKED"
    case PopupItemClick => "PAC_ON_POPUP_ITEM_CLICKED"
  }

  /** A UI callback raised by the inventory, with its event-specific arguments. */
  datatype UiEvent =
    | ItemDraggedOut(index: int)
    | ItemDraggedToNewSlot(oldIndex: int, newIndex: int)
    | ItemClicked(index: int)
    | PopupItemClicked(popupName: string)

  function KindOf(e: UiEvent): EventKind
  {
    match e
    case ItemDraggedOut(_) => DraggedOut
    case ItemDraggedToNewSlot(_, _) => DraggedToNewSlot
    case ItemClicked(_) => ItemClick
    case PopupItemClicked(_) => PopupItemClick
  }

  /** The argument list of the outbound command: inventory id, item id, then the event's own arguments. */
  function Payload(inventoryId: Guid, itemId: Guid, e: UiEvent): (args: seq<Value>)
    ensures |args| >= 3 && args[0] == VGuid(inventoryId) && args[1] == VGuid(itemId)
  {
    match e
    case ItemDraggedOut(i) => [VGuid(inventoryId), VGuid(itemId), VInt(i)]
    case ItemDraggedToNewSlot(o, n) => [VGuid(inventoryId), VGuid(itemId), VInt(o), VInt(n)]
    case ItemClicked(i) => [VGuid(inventoryId), VGuid(itemId), VInt(i)]
    case PopupItemClicked(p) => [VGuid(inventoryId), VGuid(itemId), VStr(p)]
  }

  /** One deferred SendScriptCommand call. */
  datatype Delivery = Delivery(target: Guid, command: string, args: seq<Value>)

  /** The script a fired `kind` event reaches: the tag must hold a non-empty GUID. */
  function Subscriber(item: Item, kind: EventKind): Option<Guid>
  {
    var tag := SubscriptionTag(kind);
    if tag in item.tags && item.tags[tag].VGuid? && item.tags[tag].g != EmptyGuid then
      Some(item.tags[tag].g)
    else
      None
  }

  /** SubscribeToItemEvent once the item is found: the first subscriber is kept. */
  function Subscribe(item: Item, kind: EventKind, script: Guid): (r: (Item, bool))
    ensures r.1 <==> SubscriptionTag(kind) !in item.tags
    ensures !r.1 ==> r.0 == item
    ensures r.1 ==> r.0.tags.Keys == item.tags.Keys + {SubscriptionTag(kind)}
    ensures r.1 ==> r.0.tags[SubscriptionTag(kind)] == VGuid(script)
    ensures r.1 && script != EmptyGuid ==> Subscriber(r.0, kind) == Some(script)
    ensures forall k :: k in item.tags ==> k in r.0.tags && r.0.tags[k] == item.tags[k]
    ensures r.0.(tags := item.tags) == item
  {
    var (tags, ok) := AddTag(item.tags, SubscriptionTag(kind), VGuid(script));
    (item.(tags := tags), ok)
  }

  /** UnsubscribeFromItemEvent once the item is found. */
  function Unsubscribe(item: Item, kind: EventKind): (r: (Item, bool))
    ensures r.1 <==> SubscriptionTag(kind) in item.tags
    ensures Subscriber(r.0, kind).None?
    ensures r.0.tags.Keys == item.tags.Keys - {SubscriptionTag(kind)}
    ensures forall k :: k in r.0.tags ==> r.0.tags[k] == item.tags[k]
    ensures r.0.(tags := item.tags) == item
  {
    var (tags, ok) := RemoveTag(item.tags, SubscriptionTag(kind));
    (item.(tags := tags), ok)
  }

  /** A successful subscribe followed by an unsubscribe restores the item. */
  lemma SubscribeThenUnsubscribe(item: Item, kind: EventKind, script: Guid)
    requires Subscribe(item, kind, script).1
    ensures Unsubscribe(Subscribe(item, kind, script).0, kind) == (item, true)
  {
    AddThenRemoveTag(item.tags, SubscriptionTag(kind), VGuid(script));
  }

  /**
   * The handlers that act on a game-weapon item before routing the event
   * read its weapon type with Convert.ToInt32(item.Tags["WeaponType"]): the
   * click handler to select the weapon, and DropItem for a drag-out and for
   * the "Drop" popup entry.
   */
  predicate ReadsWeaponType(e: UiEvent)
  {
    e.ItemDraggedOut? || e.ItemClicked? || (e.PopupItemClicked? && e.popupName == "Drop")
  }

  /** The handler throws before it reaches the subscriber check. */
  predicate HandlerThrows(item: Item, e: UiEvent)
  {
    GameWeaponTag in item.tags && ReadsWeaponType(e) && !WeaponTypeReadable(item)
  }

  /**
   * A UI event handler: its game-weapon prefix, then the subscriber check
   * and BeginInvokeItemEventForSubscriber. A prefix that throws leaves the
   * queue alone; a tag value that is not a GUID makes the cast throw (caught
   * and logged); an empty GUID is ignored; otherwise exactly one delivery is
   * appended.
   */
  function Notify(queue: seq<Delivery>, inventoryId: Guid, item: Item, e: UiEvent): (q: seq<Delivery>)
    ensures |queue| <= |q| <= |queue| + 1 && q[..|queue|] == queue
    ensures |q| == |queue| + 1 <==> !HandlerThrows(item, e) && Subscriber(item, KindOf(e)).Some?
    ensures |q| == |queue| + 1 ==>
      q[|queue|] == Delivery(Subscriber(item, KindOf(e)).value, NotificationCommand(KindOf(e)), Payload(inventoryId, item.id, e))
  {
    if GameWeaponTag in item.tags && ReadsWeaponType(e) &&
       (WeaponTypeTag !in item.tags || ToInt32(item.tags[WeaponTypeTag]).Fault?) then
      queue
    else
      var tag := SubscriptionTag(KindOf(e));
      if tag !in item.tags then queue
      else
        match UnboxGuid(item.tags[tag])
        case Fault => queue
        case Ok(target) =>
          if target == EmptyGuid then queue
          else queue + [Delivery(target, NotificationCommand(KindOf(e)), Payload(inventoryId, item.id, e))]
  }

  /**
   * After a script subscribes to an item's event, that event enqueues
   * exactly one delivery to it, unless the handler throws first.
   */
  lemma SubscribedEventReachesSubscriber(queue: seq<Delivery>, inventoryId: Guid, item: Item, script: Guid, e: UiEvent)
    requires script != EmptyGuid
    requires !HandlerThrows(item, e)
    requires Subscribe(item, KindOf(e), script).1
    ensures Notify(queue, inventoryId, Subscribe(item, KindOf(e), script).0, e)
         == queue + [Delivery(script, NotificationCommand(KindOf(e)), Payload(inventoryId, item.id, e))]
  {
  }

  /** After an unsubscribe, the event enqueues nothing. */
  lemma UnsubscribedEventIsSilent(queue: seq<Delivery>, inventoryId: Guid, item: Item, e: UiEvent)
    ensures Notify(queue, inventoryId, Unsubscribe(item, KindOf(e)).0, e) == queue
  {
  }

  /**
   * The queue drain at the top of the tick: deliveries are dequeued and sent
   * one by one, in order, until the queue is empty.
   */
  method DrainQueue(queue: seq<Delivery>) returns (sent: seq<Delivery>, rest: seq<Delivery>)
    ensures sent == queue
    ensures rest == []
  {
    sent := [];
    rest := queue;
    while |rest| != 0
      invariant sent + rest == queue
      decreases |rest|
    {
      assert sent + rest == (sent + [rest[0]]) + rest[1..];
      sent := sent + [rest[0]];
      rest := rest[1..];
    }
  }
}

=== FILE: housekeeping.dfy ===
/**
 * The per-tick housekeeping of the player inventory: the clothing-based
 * capacity rule, the sweep that removes items whose owning script stopped,
 * the sweep that keeps game-weapon items in step with the player's weapons,
 * and the pass that adds an item for every carried weapon not yet shown.
 *
 * Game queries (drawable variation, episode, running scripts, held weapons
 * and ammo, weapon slots, string hashes, weapon names) are inputs.
 */
module Housekeeping {
  import opened Values
  import opened Items
  import opened Inventories

  // ---------------------------------------------------------------------
  // Capacity from clothing
  // ---------------------------------------------------------------------

  /** The shipped default of the DefaultCapacity setting. */
  const DefaultCapacity := 10

  /** One entry of the per-episode clothing table: a drawable variation and the slots it adds. */
  datatype SuseSlots = SuseSlots(index: nat, additionalSlots: int)

  /** Where(x => x.Index == drawable).FirstOrDefault(): the position of the first matching entry. */
  function FirstSlotFor(slots: seq<SuseSlots>, drawable: nat): (r: Option<nat>)
    ensures r.Some? ==> r.value < |slots| && slots[r.value].index == drawable
    ensures r.Some? ==> forall j :: 0 <= j < r.value ==> slots[j].index != drawable
    ensures r.None? ==> forall j :: 0 <= j < |slots| ==> slots[j].index != drawable
  {
    if |slots| == 0 then None
    else if slots[0].index == drawable then Some(0)
    else
      match FirstSlotFor(slots[1..], drawable)
      case None => None
      case Some(j) => Some(j + 1)
  }

  /**
   * The capacity the worn clothing calls for: the default without the
   * clothing, the default plus the first matching entry's extra slots with
   * it, and nothing when the episode has no table (or a null one) or no
   * entry matches.
   */
  function TargetCapacity(drawable: nat, episode: int, table: map<int, Option<seq<SuseSlots>>>, defaultCapacity: int): Option<int>
  {
    if drawable == 0 then Some(defaultCapacity)
    else if episode !in table || table[episode].None? then None
    else
      match FirstSlotFor(table[episode].value, drawable)
      case None => None
      case Some(j) => Some(defaultCapacity + table[episode].value[j].additionalSlots)
  }

  /**
   * ResizeInventoryBasedOnClothes: the capacity passed to Resize, if any.
   * Nothing happens while extra slots are off or the inventory is open;
   * without the clothing the default is always re-applied, otherwise a
   * resize is only requested when the capacity differs.
   */
  function CapacityDecision(allowExtra: bool, visible: bool, drawable: nat, episode: int,
                            table: map<int, Option<seq<SuseSlots>>>, defaultCapacity: int, capacity: int): (r: Option<int>)
    ensures !allowExtra || visible ==> r.None?
    ensures r.Some? ==> TargetCapacity(drawable, episode, table, defaultCapacity) == r
    ensures r.Some? && drawable != 0 ==> r.value != capacity
  {
    if !allowExtra || visible then None
    else if drawable == 0 then Some(defaultCapacity)
    else if episode !in table || table[episode].None? then None
    else
      match FirstSlotFor(table[episode].value, drawable)
      case None => None
      case Some(j) =>
        var newCapacity := defaultCapacity + table[episode].value[j].additionalSlots;
        if capacity != newCapacity then Some(newCapacity) else None
  }

  /**
   * While the rule is active, the inventory ends the tick at the capacity
   * the clothing calls for: either it is resized to it, or it already has it.
   */
  lemma CapacityReachesTarget(drawable: nat, episode: int, table: map<int, Option<seq<SuseSlots>>>,
                              defaultCapacity: int, capacity: int)
    requires TargetCapacity(drawable, episode, table, defaultCapacity).Some?
    ensures var target := TargetCapacity(drawable, episode, table, defaultCapacity).value;
      match CapacityDecision(true, false, drawable, episode, table, defaultCapacity, capacity)
      case Some(n) => n == target
      case None => capacity == target
  {
  }

  /** Once the decided capacity is applied, deciding again changes nothing further. */
  lemma CapacitySettles(allowExtra: bool, visible: bool, drawable: nat, episode: int,
                        table: map<int, Option<seq<SuseSlots>>>, defaultCapacity: int, capacity: int)
    requires CapacityDecision(allowExtra, visible, drawable, episode, table, defaultCapacity, capacity).Some?
    ensures var n := CapacityDecision(allowExtra, visible, drawable, episode, table, defaultCapacity, capacity).value;
      CapacityDecision(allowExtra, visible, drawable, episode, table, defaultCapacity, n) in {None, Some(n)}
  {
  }

  // ---------------------------------------------------------------------
  // Sweeps over a snapshot of the items
  // ---------------------------------------------------------------------

  /** What one sweep does to one item: keep it (possibly updated), remove it, or throw. */
  type Step = Item -> Outcome<Option<Item>>

  /** An item array returned by GetItems: every held id exactly once. */
  predicate Snapshot(items: map<Guid, Item>, order: seq<Guid>)
  {
    && (forall i, j :: 0 <= i < j < |order| ==> order[i] != order[j])
    && (forall k :: k in items ==> k in order)
    && (forall i :: 0 <= i < |order| ==> order[i] in items)
  }

  /**
   * A for-loop over a snapshot that removes or updates items in place. An
   * exception ends the tick: the changes made so far stay and the second
   * component reports the abort.
   */
  function Sweep(items: map<Guid, Item>, order: seq<Guid>, step: Step): (r: (map<Guid, Item>, bool))
    ensures r.0.Keys <= items.Keys
    ensures forall k :: k in items && k !in order ==> k in r.0 && r.0[k] == items[k]
    decreases |order|
  {
    if |order| == 0 then (items, false)
    else
      var id := order[0];
      if id !in items then Sweep(items, order[1..], step)
      else
        match step(items[id])
        case Fault => (items, true)
        case Ok(None) => Sweep(items - {id}, order[1..], step)
        case Ok(Some(updated)) => Sweep(items[id := updated], order[1..], step)
  }

  /** The outcome every item of `ids` should see, applied all at once; the other items stay. */
  function Swept(items: map<Guid, Item>, ids: set<Guid>, step: Step): map<Guid, Item>
    requires forall k :: k in items && k in ids ==> step(items[k]).Ok?
  {
    map k | k in items && (k !in ids || step(items[k]).value.Some?) ::
      if k in ids then step(items[k]).value.value else items[k]
  }

  /**
   * When no item throws, the in-place loop over a repetition-free order
   * gives each visited item its own outcome, independently of the order.
   */
  lemma {:induction false} SweepMatchesSwept(items: map<Guid, Item>, order: seq<Guid>, step: Step)
    requires forall i, j :: 0 <= i < j < |order| ==> order[i] != order[j]
    requires forall k :: k in items && k in order ==> step(items[k]).Ok?
    ensures Sweep(items, order, step) == (Swept(items, (set k | k in order), step), false)
    decreases |order|
  {
    var ids := set k | k in order;
    if |order| == 0 {
      assert Swept(items, ids, step) == items;
    } else {
      var id := order[0];
      var rest := order[1..];
      var restIds := set k | k in rest;
      assert ids == restIds + {id};
      assert id !in restIds by {
        forall i | 0 <= i < |rest| ensures rest[i] != id {
          assert rest[i] == order[i + 1];
        }
      }
      if id !in items {
        SweepMatchesSwept(items, rest, step);
        assert Swept(items, restIds, step) == Swept(items, ids, step);
      } else {
        var next := match step(items[id]).value
          case None => items - {id}
          case Some(updated) => items[id := updated];
        assert forall k :: k in next && k != id ==> k in items && next[k] == items[k];
        SweepMatchesSwept(next, rest, step);
        assert Swept(next, restIds, step) == Swept(items, ids, step);
      }
    }
  }

  /** A sweep over a snapshot that throws nowhere applies every item's outcome. */
  lemma SweepSnapshot(items: map<Guid, Item>, order: seq<Guid>, step: Step)
    requires Snapshot(items, order)
    requires forall k :: k in items ==> step(items[k]).Ok?
    ensures Sweep(items, order, step) == (Swept(items, items.Keys, step), false)
  {
    var ids := set k | k in order;
    assert ids == items.Keys;
    SweepMatchesSwept(items, order, step);
    assert Swept(items, ids, step) == Swept(items, items.Keys, step);
  }

  // ---------------------------------------------------------------------
  // CheckForInvalidScriptItems
  // ---------------------------------------------------------------------

  /** The owner tag is unboxed with a Guid cast, which throws on any other value. */
  predicate OwnerReadable(item: Item)
  {
    CustomItemTag in item.tags && KeepOnUnloadTag !in item.tags ==> item.tags[CustomItemTag].VGuid?
  }

  /** An item added by a script that is no longer running and not marked to survive it. */
  predicate IsOrphan(item: Item, running: set<Guid>)
  {
    && CustomItemTag in item.tags
    && KeepOnUnloadTag !in item.tags
    && item.tags[CustomItemTag].VGuid?
    && item.tags[CustomItemTag].g !in running
  }

  /** The loop body of CheckForInvalidScriptItems for one item. */
  function OrphanStep(item: Item, running: set<Guid>): (r: Outcome<Option<Item>>)
    ensures r.Ok? <==> OwnerReadable(item)
    ensures r.Ok? ==> (r.value.None? <==> IsOrphan(item, running))
    ensures r.Ok? && r.value.Some? ==> r.value.value == item
  {
    if CustomItemTag !in item.tags then Ok(Some(item))
    else if KeepOnUnloadTag in item.tags then Ok(Some(item))
    else
      var owner :- UnboxGuid(item.tags[CustomItemTag]);
      if owner !in running then Ok(None) else Ok(Some(item))
  }

  function OrphanSweepStep(running: set<Guid>): Step
  {
    item => OrphanStep(item, running)
  }

  /** CheckForInvalidScriptItems over the items of one GetItems snapshot. */
  function RemoveOrphans(items: map<Guid, Item>, order: seq<Guid>, running: set<Guid>): (r: (map<Guid, Item>, bool))
  {
    Sweep(items, order, OrphanSweepStep(running))
  }

  /** Over a snapshot with readable owner tags, exactly the orphans are removed and nothing else changes. */
  lemma RemoveOrphansExactly(items: map<Guid, Item>, order: seq<Guid>, running: set<Guid>)
    requires Snapshot(items, order)
    requires forall k :: k in items ==> OwnerReadable(items[k])
    ensures RemoveOrphans(items, order, running)
         == (map k | k in items && !IsOrphan(items[k], running) :: items[k], false)
  {
    var step := OrphanSweepStep(running);
    SweepSnapshot(items, order, step);
    assert Swept(items, items.Keys, step) == map k | k in items && !IsOrphan(items[k], running) :: items[k];
  }

  /** An owner tag that is not a GUID ends the sweep at that item. */
  lemma UnreadableOwnerAborts(items: map<Guid, Item>, id: Guid, rest: seq<Guid>, running: set<Guid>)
    requires id in items && !OwnerReadable(items[id])
    ensures RemoveOrphans(items, [id] + rest, running) == (items, true)
  {
    assert ([id] + rest)[0] == id;
  }

  // ---------------------------------------------------------------------
  // Game weapon items
  // ---------------------------------------------------------------------

  // Values of the game's weapon-type enumeration the core names.
  const Unarmed := 0
  const BaseballBat := 1
  const PoolCue := 2
  const Knife := 3
  const Grenade := 4
  const Molotov := 5
  const RocketLauncher := 18
  const Episodic8 := 28
  const Episodic16 := 36
  const LastWeaponType := 47
  const AnyWeapon := 57

  /** Unarmed and the pseudo types from LAST_WEAPONTYPE (47) through ANYWEAPON (57) never become items. */
  predicate Ignored(weaponType: int)
  {
    weaponType == Unarmed || LastWeaponType <= weaponType <= AnyWeapon
  }

  /** The unit text shown after the ammo count; melee weapons show a fixed "1x". */
  function AmmoSuffix(weaponType: int): string
  {
    if weaponType in {Grenade, Molotov, Episodic8, Episodic16} then "x"
    else if weaponType == RocketLauncher then " Rockets"
    else " Bullets"
  }

  /** The bottom-left text of a weapon item. */
  function AmmoLabel(weaponType: int, ammo: int): string
  {
    if weaponType in {BaseballBat, Knife, PoolCue} then "1x"
    else IntText(ammo) + AmmoSuffix(weaponType)
  }

  /** Every text but the melee one starts with the ammo count, which can be read back. */
  lemma AmmoLabelShowsAmmo(weaponType: int, ammo: int)
    requires weaponType !in {BaseballBat, Knife, PoolCue}
    ensures var text := AmmoLabel(weaponType, ammo);
      && |text| > |AmmoSuffix(weaponType)|
      && text[|text| - |AmmoSuffix(weaponType)|..] == AmmoSuffix(weaponType)
      && ParseInteger(text[..|text| - |AmmoSuffix(weaponType)|]) == Some(ammo)
  {
    var text := AmmoLabel(weaponType, ammo);
    var n := IntText(ammo);
    assert text[..|n|] == n;
    IntTextRoundTrip(ammo);
  }

  /** The held weapons, as HAS_CHAR_GOT_WEAPON and GET_AMMO_IN_CHAR_WEAPON report them: type to ammo. */
  type Held = map<int, int>

  /** A game-weapon item stays while its weapon is held with ammo other than zero. */
  predicate WeaponKept(item: Item, held: Held)
    requires WeaponTypeReadable(item)
  {
    GameWeaponTag !in item.tags ||
      (var t := ToInt32(item.tags[WeaponTypeTag]).value; t in held && held[t] != 0)
  }

  /** The loop body of the weapon update for one item. */
  function WeaponStep(item: Item, held: Held): (r: Outcome<Option<Item>>)
    ensures r.Ok? <==> WeaponTypeReadable(item)
    ensures r.Ok? ==> (r.value.Some? <==> WeaponKept(item, held))
    ensures r.Ok? && r.value.Some? ==> r.value.value.(bottomLeftText := item.bottomLeftText) == item
  {
    if GameWeaponTag !in item.tags then Ok(Some(item))
    else if WeaponTypeTag !in item.tags then Fault
    else
      var weaponType :- ToInt32(item.tags[WeaponTypeTag]);
      if weaponType !in held then Ok(None)
      else
        var ammo := held[weaponType];
        if ammo == 0 then Ok(None)
        else Ok(Some(item.(bottomLeftText := Some(AmmoLabel(weaponType, ammo)))))
  }

  function WeaponSweepStep(held: Held): Step
  {
    item => WeaponStep(item, held)
  }

  /** The weapon update of Main_Tick over the items of one GetItems snapshot. */
  function UpdateWeapons(items: map<Guid, Item>, order: seq<Guid>, held: Held): (r: (map<Guid, Item>, bool))
  {
    Sweep(items, order, WeaponSweepStep(held))
  }

  /** The text a kept item shows afterwards. */
  function Relabelled(item: Item, held: Held): Item
    requires WeaponTypeReadable(item) && WeaponKept(item, held)
  {
    if GameWeaponTag !in item.tags then item
    else
      var t := ToInt32(item.tags[WeaponTypeTag]).value;
      item.(bottomLeftText := Some(AmmoLabel(t, held[t])))
  }

  /** With a readable weapon type, the step keeps exactly the kept items and relabels them. */
  lemma WeaponStepRelabels(item: Item, held: Held)
    requires WeaponTypeReadable(item)
    ensures WeaponSweepStep(held)(item)
         == if WeaponKept(item, held) then Ok(Some(Relabelled(item, held))) else Ok(None)
  {
  }

  /**
   * Over a snapshot with readable weapon types: every weapon item whose
   * weapon is gone or empty is removed, every other weapon item shows its
   * current ammo, and other items are untouched.
   */
  lemma UpdateWeaponsExactly(items: map<Guid, Item>, order: seq<Guid>, held: Held)
    requires Snapshot(items, order)
    requires forall k :: k in items ==> WeaponTypeReadable(items[k])
    ensures UpdateWeapons(items, order, held)
         == (map k | k in items && WeaponKept(items[k], held) :: Relabelled(items[k], held), false)
  {
    var step := WeaponSweepStep(held);
    SweepSnapshot(items, order, step);
    var swept := Swept(items, items.Keys, step);
    var kept := map k | k in items && WeaponKept(items[k], held) :: Relabelled(items[k], held);
    forall k | k in items
      ensures step(items[k]) == if WeaponKept(items[k], held) then Ok(Some(Relabelled(items[k], held))) else Ok(None)
    {
      WeaponStepRelabels(items[k], held);
    }
    assert swept.Keys == kept.Keys;
    assert swept == kept;
  }

  // ---------------------------------------------------------------------
  // Automatic weapon items
  // ---------------------------------------------------------------------

  /** GET_CHAR_WEAPON_IN_SLOT: the weapon type and the first ammo count of one slot. */
  datatype WeaponSlot = WeaponSlot(weaponType: Int32, ammo: Int32)

  /** The weight shown for a weapon: the boxed float stored in the WEIGHT tag and its text. */
  datatype Weight = Weight(boxed: Value, text: string)

  /**
   * What the auto-add pass consults: AtStringHash of the type's name, the
   * common weapon name, the loaded textures and the predefined weights.
   */
  datatype Armoury = Armoury(
    hashOf: int -> nat,
    nameOf: int -> string,
    textures: map<int, Icon>,
    weights: map<string, Weight>)

  /** A slot that gets an item unless its hash is already shown. */
  predicate Eligible(s: WeaponSlot)
  {
    !Ignored(s.weaponType) && s.ammo != 0
  }

  /** The item built for a carried weapon. */
  function WeaponItem(id: Guid, weaponType: Int32, a: Armoury): (item: Item)
    ensures item.id == id && item.hash == a.hashOf(weaponType)
    ensures GameWeaponTag in item.tags && WeaponTypeTag in item.tags && item.tags[WeaponTypeTag] == VInt(weaponType)
    ensures WeaponTypeReadable(item)
    ensures item.popups == {"Drop"} && item.topLeftText == Some(a.nameOf(weaponType))
    ensures (WeightTag in item.tags) <==> a.nameOf(weaponType) in a.weights
    ensures var name := a.nameOf(weaponType);
      name in a.weights ==>
        item.tags[WeightTag] == a.weights[name].boxed && item.bottomRightText == Some(a.weights[name].text + "lb")
  {
    var name := a.nameOf(weaponType);
    var base := NewItem(id, a.hashOf(weaponType)).(
      tags := map[GameWeaponTag := VNull, WeaponTypeTag := VInt(weaponType)],
      popups := {"Drop"},
      topLeftText := Some(name),
      icon := if weaponType in a.textures then Some(a.textures[weaponType]) else None);
    if name in a.weights then
      base.(tags := base.tags[WeightTag := a.weights[name].boxed],
            bottomRightText := Some(a.weights[name].text + "lb"))
    else base
  }

  /** The hashes the carried weapons call for. */
  function WantedHashes(slots: seq<WeaponSlot>, a: Armoury): set<nat>
  {
    set j | 0 <= j < |slots| && Eligible(slots[j]) :: a.hashOf(slots[j].weaponType)
  }

  /**
   * The auto-add loop over the weapon slots, in slot order; each new item
   * draws the next id, and a full inventory simply refuses it.
   */
  function AutoAdd(inv: Inventory, nextId: Guid, slots: seq<WeaponSlot>, a: Armoury): (r: (Inventory, Guid))
    requires forall k :: k in inv.items ==> k < nextId
    ensures nextId <= r.1
    ensures forall k :: k in r.0.items ==> k < r.1
    ensures r.0.(items := inv.items) == inv
    ensures forall k :: k in inv.items ==> k in r.0.items && r.0.items[k] == inv.items[k]
    ensures forall k :: k in r.0.items && k !in inv.items ==>
      nextId <= k && GameWeaponTag in r.0.items[k].tags && r.0.items[k].hash in WantedHashes(slots, a)
      && WeaponTypeReadable(r.0.items[k])
    ensures Inventories.Valid(inv) ==> Inventories.Valid(r.0)
    decreases |slots|
  {
    if |slots| == 0 then (inv, nextId)
    else
      var s := slots[0];
      WantedHashesTail(slots, a);
      if Ignored(s.weaponType) || ContainsHash(inv, a.hashOf(s.weaponType)) || s.ammo == 0 then
        AutoAdd(inv, nextId, slots[1..], a)
      else
        assert a.hashOf(s.weaponType) in WantedHashes(slots, a) by { assert Eligible(slots[0]); }
        PlaceWeapon(inv, nextId, s.weaponType, a);
        AutoAdd(AddItem(inv, WeaponItem(nextId, s.weaponType, a)).0, nextId + 1, slots[1..], a)
  }

  /** Placing the item built for a weapon keeps what the pass promises of every step. */
  lemma PlaceWeapon(inv: Inventory, nextId: Guid, weaponType: Int32, a: Armoury)
    requires forall k :: k in inv.items ==> k < nextId
    ensures var placed := AddItem(inv, WeaponItem(nextId, weaponType, a)).0;
      && (forall k :: k in placed.items ==> k < nextId + 1)
      && placed.(items := inv.items) == inv
      && (forall k :: k in inv.items ==> k in placed.items && placed.items[k] == inv.items[k])
      && (forall k :: k in placed.items && k !in inv.items ==>
            k == nextId && placed.items[k] == WeaponItem(nextId, weaponType, a))
      && (Inventories.Valid(inv) ==> Inventories.Valid(placed))
  {
    var item := WeaponItem(nextId, weaponType, a);
    if Inventories.Valid(inv) && AddItem(inv, item).1 {
      AddItemTakesOneSlot(inv, item);
    }
  }

  lemma WantedHashesTail(slots: seq<WeaponSlot>, a: Armoury)
    requires |slots| > 0
    ensures WantedHashes(slots[1..], a) <= WantedHashes(slots, a)
  {
    forall h | h in WantedHashes(slots[1..], a) ensures h in WantedHashes(slots, a) {
      var j :| 0 <= j < |slots[1..]| && Eligible(slots[1..][j]) && h == a.hashOf(slots[1..][j].weaponType);
      assert slots[j + 1] == slots[1..][j];
    }
  }

  /**
   * Every item of `after` that `before` lacks has a hash no item of `before`
   * has, and no other item of `after` shares it.
   */
  predicate AddsOnlyMissing(before: map<Guid, Item>, after: map<Guid, Item>)
  {
    && (forall k, j :: k in after && k !in before && j in before ==> before[j].hash != after[k].hash)
    && (forall k, j :: k in after && k !in before && j in after && j != k ==> after[j].hash != after[k].hash)
  }

  /** One guarded add followed by a pass that adds only missing hashes adds only missing hashes. */
  lemma AddsOnlyMissingStep(before: map<Guid, Item>, mid: map<Guid, Item>, after: map<Guid, Item>, id: Guid)
    requires forall k :: k in before ==> k in mid && mid[k] == before[k]
    requires mid.Keys <= before.Keys + {id}
    requires id in mid && id !in before ==> forall j :: j in before ==> before[j].hash != mid[id].hash
    requires forall k :: k in mid ==> k in after && after[k] == mid[k]
    requires AddsOnlyMissing(mid, after)
    ensures AddsOnlyMissing(before, after)
  {
    forall k, j | k in after && k !in before && j in after && j != k
      ensures after[j].hash != after[k].hash
    {
      if k in mid && j in mid {
        assert k == id && j in before;
      }
    }
  }

  /** The pass past a slot it skips. */
  lemma AutoAddSkips(inv: Inventory, nextId: Guid, slots: seq<WeaponSlot>, a: Armoury)
    requires forall k :: k in inv.items ==> k < nextId
    requires |slots| > 0
    requires !Eligible(slots[0]) || ContainsHash(inv, a.hashOf(slots[0].weaponType))
    ensures AutoAdd(inv, nextId, slots, a) == AutoAdd(inv, nextId, slots[1..], a)
  {
  }

  /** The pass past a slot whose weapon it tries to add. */
  lemma AutoAddTakes(inv: Inventory, nextId: Guid, slots: seq<WeaponSlot>, a: Armoury)
    requires forall k :: k in inv.items ==> k < nextId
    requires |slots| > 0
    requires Eligible(slots[0]) && !ContainsHash(inv, a.hashOf(slots[0].weaponType))
    ensures var placed := AddItem(inv, WeaponItem(nextId, slots[0].weaponType, a)).0;
      && (forall k :: k in placed.items ==> k < nextId + 1)
      && AutoAdd(inv, nextId, slots, a) == AutoAdd(placed, nextId + 1, slots[1..], a)
  {
  }

  /**
   * The pass only adds a weapon whose hash the inventory does not yet
   * contain: every added item's hash was absent before, and no other item
   * afterwards shares it.
   */
  lemma {:induction false} AutoAddAddsOnlyMissing(inv: Inventory, nextId: Guid, slots: seq<WeaponSlot>, a: Armoury)
    requires forall k :: k in inv.items ==> k < nextId
    ensures AddsOnlyMissing(inv.items, AutoAdd(inv, nextId, slots, a).0.items)
    ensures var r := AutoAdd(inv, nextId, slots, a).0;
      forall k :: k in r.items && k !in inv.items ==> !ContainsHash(inv, r.items[k].hash)
    decreases |slots|
  {
    if |slots| != 0 {
      var s := slots[0];
      if !Eligible(s) || ContainsHash(inv, a.hashOf(s.weaponType)) {
        AutoAddSkips(inv, nextId, slots, a);
        AutoAddAddsOnlyMissing(inv, nextId, slots[1..], a);
      } else {
        AutoAddTakes(inv, nextId, slots, a);
        var item := WeaponItem(nextId, s.weaponType, a);
        var placed := AddItem(inv, item).0;
        AutoAddAddsOnlyMissing(placed, nextId + 1, slots[1..], a);
        assert forall j :: j in inv.items ==> inv.items[j].hash != item.hash;
        AddsOnlyMissingStep(inv.items, placed.items, AutoAdd(placed, nextId + 1, slots[1..], a).0.items, nextId);
      }
    }
  }

  /** The item is the one the auto-add pass builds for some eligible slot. */
  predicate BuiltForSlot(item: Item, id: Guid, slots: seq<WeaponSlot>, a: Armoury)
  {
    exists j :: 0 <= j < |slots| && Eligible(slots[j]) && item == WeaponItem(id, slots[j].weaponType, a)
  }

  /** Every item the pass adds is the weapon item built, under its own id, for an eligible slot. */
  lemma {:induction false} AutoAddBuildsWeaponItems(inv: Inventory, nextId: Guid, slots: seq<WeaponSlot>, a: Armoury)
    requires forall k :: k in inv.items ==> k < nextId
    ensures var r := AutoAdd(inv, nextId, slots, a).0;
      forall k :: k in r.items && k !in inv.items ==> BuiltForSlot(r.items[k], k, slots, a)
    decreases |slots|
  {
    if |slots| != 0 {
      var s := slots[0];
      var next, id := inv, nextId;
      if !Eligible(s) || ContainsHash(inv, a.hashOf(s.weaponType)) {
        AutoAddSkips(inv, nextId, slots, a);
      } else {
        AutoAddTakes(inv, nextId, slots, a);
        PlaceWeapon(inv, nextId, s.weaponType, a);
        next, id := AddItem(inv, WeaponItem(nextId, s.weaponType, a)).0, nextId + 1;
      }
      AutoAddBuildsWeaponItems(next, id, slots[1..], a);
      var r := AutoAdd(next, id, slots[1..], a).0;
      forall k | k in r.items && k !in inv.items
        ensures BuiltForSlot(r.items[k], k, slots, a)
      {
        if k in next.items {
          assert Eligible(slots[0]) && r.items[k] == WeaponItem(k, slots[0].weaponType, a);
        } else {
          var j :| 0 <= j < |slots[1..]| && Eligible(slots[1..][j]) && r.items[k] == WeaponItem(k, slots[1..][j].weaponType, a);
          var s' := slots[j + 1];
          assert s' == slots[1..][j];
          assert 0 <= j + 1 < |slots| && Eligible(s') && r.items[k] == WeaponItem(k, s'.weaponType, a);
        }
      }
    }
  }

  /** A full inventory receives nothing. */
  lemma {:induction false} AutoAddWhenFull(inv: Inventory, nextId: Guid, slots: seq<WeaponSlot>, a: Armoury)
    requires forall k :: k in inv.items ==> k < nextId
    requires FreeSlots(inv) <= 0
    ensures AutoAdd(inv, nextId, slots, a).0 == inv
    decreases |slots|
  {
    if |slots| != 0 {
      AutoAddWhenFull(inv, nextId + 1, slots[1..], a);
      AutoAddWhenFull(inv, nextId, slots[1..], a);
    }
  }

  /** Afterwards every carried weapon is shown, unless the inventory is full. */
  lemma {:induction false} AutoAddCovers(inv: Inventory, nextId: Guid, slots: seq<WeaponSlot>, a: Armoury)
    requires forall k :: k in inv.items ==> k < nextId
    ensures var r := AutoAdd(inv, nextId, slots, a).0;
      forall j :: 0 <= j < |slots| && Eligible(slots[j]) ==>
        ContainsHash(r, a.hashOf(slots[j].weaponType)) || FreeSlots(r) <= 0
    decreases |slots|
  {
    if |slots| != 0 {
      var s := slots[0];
      var h := a.hashOf(s.weaponType);
      var next, id := inv, nextId;
      if !(Ignored(s.weaponType) || ContainsHash(inv, h) || s.ammo == 0) {
        next, id := AddItem(inv, WeaponItem(nextId, s.weaponType, a)).0, nextId + 1;
      }
      assert AutoAdd(inv, nextId, slots, a) == AutoAdd(next, id, slots[1..], a);
      AutoAddCovers(next, id, slots[1..], a);
      var r := AutoAdd(next, id, slots[1..], a).0;
      forall j | 0 <= j < |slots| && Eligible(slots[j])
        ensures ContainsHash(r, a.hashOf(slots[j].weaponType)) || FreeSlots(r) <= 0
      {
        if j > 0 {
          assert slots[1..][j - 1] == slots[j];
        } else if ContainsHash(next, h) {
          var k :| k in next.items && next.items[k].hash == h;
          assert r.items[k] == next.items[k];
        } else {
          assert FreeSlots(next) <= 0;
          AutoAddWhenFull(next, id, slots[1..], a);
        }
      }
    }
  }

  /** When every carried weapon is already shown or there is no room, the pass adds nothing and draws no id. */
  lemma {:induction false} AutoAddNothingToDo(inv: Inventory, nextId: Guid, slots: seq<WeaponSlot>, a: Armoury)
    requires forall k :: k in inv.items ==> k < nextId
    requires forall j :: 0 <= j < |slots| && Eligible(slots[j]) ==>
      ContainsHash(inv, a.hashOf(slots[j].weaponType)) || FreeSlots(inv) <= 0
    ensures AutoAdd(inv, nextId, slots, a) == (inv, nextId) || FreeSlots(inv) <= 0
    ensures AutoAdd(inv, nextId, slots, a).0 == inv
    decreases |slots|
  {
    if FreeSlots(inv) <= 0 {
      AutoAddWhenFull(inv, nextId, slots, a);
    } else if |slots| != 0 {
      assert forall j :: 0 <= j < |slots[1..]| ==> slots[1..][j] == slots[j + 1];
      AutoAddNothingToDo(inv, nextId, slots[1..], a);
    }
  }

  /** Running the pass a second time with the same slots adds nothing more. */
  lemma AutoAddSettles(inv: Inventory, nextId: Guid, slots: seq<WeaponSlot>, a: Armoury)
    requires forall k :: k in inv.items ==> k < nextId
    ensures var r := AutoAdd(inv, nextId, slots, a);
      AutoAdd(r.0, r.1, slots, a).0 == r.0
  {
    AutoAddCovers(inv, nextId, slots, a);
    var r := AutoAdd(inv, nextId, slots, a);
    AutoAddNothingToDo(r.0, r.1, slots, a);
  }
}

=== FILE: inventories.dfy ===
/**
 * The slice of the inventory library (BasicInventory) the core relies on.
 * An inventory is a capacity and its items keyed by id; the library's slot
 * placement and resize eviction order are not modelled.
 */
module Inventories {
  import opened Values
  import opened Items

  datatype Inventory = Inventory(
    id: Guid,
    name: string,
    capacity: int,
    visible: bool,
    items: map<Guid, Item>)

  /** Occupancy never exceeds capacity and every item is filed under its own id. */
  predicate Valid(inv: Inventory)
  {
    && |inv.items| <= inv.capacity
    && (forall k :: k in inv.items ==> inv.items[k].id == k)
  }

  /** GetAmountOfFreeSlots. */
  function FreeSlots(inv: Inventory): int
  {
    inv.capacity - |inv.items|
  }

  /**
   * AddItem: fails when no slot is free; otherwise holds exactly one more
   * item. Failing on an id already held is an assumption about the library,
   * whose source is not part of this model; under the registry invariant
   * every new item's id is fresh, so that case is never reached.
   */
  function AddItem(inv: Inventory, item: Item): (r: (Inventory, bool))
    ensures r.1 <==> FreeSlots(inv) > 0 && item.id !in inv.items
    ensures !r.1 ==> r.0 == inv
    ensures r.1 ==> r.0.items.Keys == inv.items.Keys + {item.id} && r.0.items[item.id] == item
    ensures forall k :: k in inv.items ==> k in r.0.items && r.0.items[k] == inv.items[k]
    ensures r.0.(items := inv.items) == inv
  {
    if FreeSlots(inv) > 0 && item.id !in inv.items then
      (inv.(items := inv.items[item.id := item]), true)
    else
      (inv, false)
  }

  /** RemoveItem by id: fails when the id is not held; otherwise exactly that item goes. */
  function RemoveItem(inv: Inventory, id: Guid): (r: (Inventory, bool))
    ensures r.1 <==> id in inv.items
    ensures r.0.items.Keys == inv.items.Keys - {id}
    ensures forall k :: k in r.0.items ==> r.0.items[k] == inv.items[k]
    ensures r.0.(items := inv.items) == inv
  {
    if id in inv.items then (inv.(items := inv.items - {id}), true) else (inv, false)
  }

  /** GetItem by id: null when the id is not held. */
  function GetItem(inv: Inventory, id: Guid): (r: Option<Item>)
    ensures r.Some? <==> id in inv.items
    ensures r.Some? ==> r.value == inv.items[id]
  {
    if id in inv.items then Some(inv.items[id]) else None
  }

  /** ContainsItem by content hash: some held item has that hash. */
  predicate ContainsHash(inv: Inventory, hash: nat)
  {
    exists k :: k in inv.items && inv.items[k].hash == hash
  }

  /** The in-place mutation of a held item, seen through the inventory. */
  function PutItem(inv: Inventory, item: Item): (r: Inventory)
    requires item.id in inv.items
    ensures r.items.Keys == inv.items.Keys
    ensures Valid(inv) ==> Valid(r)
  {
    inv.(items := inv.items[item.id := item])
  }

  /** Adding an item takes exactly one free slot and keeps the inventory valid. */
  lemma AddItemTakesOneSlot(inv: Inventory, item: Item)
    requires Valid(inv)
    requires AddItem(inv, item).1
    ensures Valid(AddItem(inv, item).0)
    ensures FreeSlots(AddItem(inv, item).0) == FreeSlots(inv) - 1
  {
    var after := AddItem(inv, item).0;
    assert after.items.Keys == inv.items.Keys + {item.id};
    assert |after.items.Keys| == |inv.items.Keys| + 1;
  }

  /** addItem(x); removeItem(x.id) returns the inventory to its previous state. */
  lemma AddThenRemoveItem(inv: Inventory, item: Item)
    requires AddItem(inv, item).1
    ensures RemoveItem(AddItem(inv, item).0, item.id) == (inv, true)
  {
    assert inv.items[item.id := item] - {item.id} == inv.items;
  }

  /** Removing an item frees exactly one slot and keeps the inventory valid. */
  lemma RemoveItemFreesOneSlot(inv: Inventory, id: Guid)
    requires Valid(inv)
    requires id in inv.items
    ensures Valid(RemoveItem(inv, id).0)
    ensures FreeSlots(RemoveItem(inv, id).0) == FreeSlots(inv) + 1
  {
    var after := RemoveItem(inv, id).0;
    assert after.items.Keys == inv.items.Keys - {id};
    assert |after.items.Keys| == |inv.items.Keys| - 1;
  }
}

=== FILE: items.dfy ===
/**
 * The inventory item record: identity, content hash, display texts, an
 * optional icon, an open tag map (string keys to boxed values) and a set of
 * popup-menu entries. Tags substitute for item subtyping: marker keys such
 * as IS_CUSTOM_ITEM or IS_GAME_WEAPON drive behaviour elsewhere.
 */
module Items {
  import opened Values

  /** A texture handle with the size it was registered with; the texture itself is opaque. */
  datatype Icon = Icon(texture: int, width: int, height: int)

  type Tags = map<string, Value>

  /** A display text the library constructor leaves at its own default is None. */
  datatype Item = Item(
    id: Guid,
    hash: nat,
    buttonText: Option<string>,
    topLeftText: Option<string>,
    topRightText: Option<string>,
    bottomLeftText: Option<string>,
    bottomRightText: Option<string>,
    tooltip: Option<string>,
    icon: Option<Icon>,
    tags: Tags,
    popups: set<string>)

  /** new BasicInventoryItem(hash) with the identity the constructor draws. */
  function NewItem(id: Guid, hash: nat): Item
  {
    Item(id, hash, None, None, None, None, None, None, None, map[], {})
  }

  // Marker tag keys the core itself reads or writes.
  const CustomItemTag := "IS_CUSTOM_ITEM"
  const KeepOnUnloadTag := "DO_NOT_REMOVE_ITEM_WHEN_MOD_THAT_ADDED_IT_UNLOADS"
  const GameWeaponTag := "IS_GAME_WEAPON"
  const WeaponTypeTag := "WeaponType"
  const WeightTag := "WEIGHT"

  /**
   * Convert.ToInt32(item.Tags["WeaponType"]) succeeds on every game-weapon
   * item: the tag is present and holds a value that converts to an Int32.
   */
  predicate WeaponTypeReadable(item: Item)
  {
    GameWeaponTag in item.tags ==> WeaponTypeTag in item.tags && ToInt32(item.tags[WeaponTypeTag]).Ok?
  }

  /** Tags.Add guarded by ContainsKey: a present key is never overwritten. */
  function AddTag(tags: Tags, key: string, v: Value): (r: (Tags, bool))
    ensures r.1 <==> key !in tags
    ensures !r.1 ==> r.0 == tags
    ensures r.1 ==> r.0.Keys == tags.Keys + {key} && r.0[key] == v
    ensures forall k :: k in tags && k != key ==> k in r.0 && r.0[k] == tags[k]
  {
    if key in tags then (tags, false) else (tags[key := v], true)
  }

  /** Tags.Remove guarded by ContainsKey: an absent key is a failure that changes nothing. */
  function RemoveTag(tags: Tags, key: string): (r: (Tags, bool))
    ensures r.1 <==> key in tags
    ensures r.0.Keys == tags.Keys - {key}
    ensures forall k :: k in r.0 ==> r.0[k] == tags[k]
  {
    if key in tags then (tags - {key}, true) else (tags, false)
  }

  /** Adding a fresh key and removing it again restores the tag map. */
  lemma AddThenRemoveTag(tags: Tags, key: string, v: Value)
    requires key !in tags
    ensures RemoveTag(AddTag(tags, key, v).0, key) == (tags, true)
  {
    assert tags[key := v] - {key} == tags;
  }

  /** Removing a present key and adding it back with its old value restores the tag map. */
  lemma RemoveThenAddTag(tags: Tags, key: string)
    requires key in tags
    ensures AddTag(RemoveTag(tags, key).0, key, tags[key]) == (tags, true)
  {
    assert (tags - {key})[key := tags[key]] == tags;
  }

  /** PopupMenuItems.Add guarded by Contains: set insertion that reports duplicates. */
  function AddPopup(popups: set<string>, name: string): (r: (set<string>, bool))
    ensures r.1 <==> name !in popups
    ensures name in r.0 && r.0 - {name} == popups - {name}
  {
    if name in popups then (popups, false) else (popups + {name}, true)
  }

  /** PopupMenuItems.Remove guarded by Contains: set deletion that reports a missing entry. */
  function RemovePopup(popups: set<string>, name: string): (r: (set<string>, bool))
    ensures r.1 <==> name in popups
    ensures name !in r.0 && r.0 + {name} == popups + {name}
  {
    if name in popups then (popups - {name}, true) else (popups, false)
  }

  /** A popup entry added and removed again leaves the menu as it was. */
  lemma AddThenRemovePopup(popups: set<string>, name: string)
    requires name !in popups
    ensures RemovePopup(AddPopup(popups, name).0, name) == (popups, true)
  {
  }

  /** A second add of the same entry is rejected and changes nothing. */
  lemma AddPopupTwice(popups: set<string>, name: string)
    ensures AddPopup(AddPopup(popups, name).0, name) == (AddPopup(popups, name).0, false)
  {
  }
}

=== FILE: tick.dfy ===
/**
 * Main_Tick as far as it touches the modelled state: the multiplayer guard,
 * the drain of the deferred event deliveries, and the housekeeping passes
 * over the player inventory in the order the tick runs them.
 */
module Tick {
  import opened Values
  import opened Items
  import opened Inventories
  import opened Events
  import opened Dispatcher
  import opened Housekeeping

  /**
   * The top of Main_Tick. With DisableInMP set during a network game the
   * tick returns at once and the queue is kept; otherwise every queued
   * delivery is sent, oldest first, and the queue is left empty.
   */
  method Prologue(st: State, disableInMp: bool, networkGameRunning: bool)
    returns (st': State, delivered: seq<Delivery>, proceed: bool)
    ensures !proceed <==> disableInMp && networkGameRunning
    ensures !proceed ==> st' == st && delivered == []
    ensures proceed ==> delivered == st.queue && st' == st.(queue := [])
  {
    if disableInMp && networkGameRunning {
      return st, [], false;
    }
    var sent, rest := DrainQueue(st.queue);
    st' := st.(queue := rest);
    delivered := sent;
    proceed := true;
  }

  /** A UI callback on an item of an inventory. */
  datatype Fired = Fired(inventoryId: Guid, item: Item, event: UiEvent)

  /** The queue after a series of UI callbacks, each handled as it is raised. */
  function NotifyAll(queue: seq<Delivery>, fired: seq<Fired>): seq<Delivery>
    decreases |fired|
  {
    if |fired| == 0 then queue
    else
      var last := fired[|fired| - 1];
      Notify(NotifyAll(queue, fired[..|fired| - 1]), last.inventoryId, last.item, last.event)
  }

  /**
   * The deliveries a series of callbacks calls for: one per callback whose
   * handler does not throw and whose item has a subscriber, in order.
   */
  function Deliveries(fired: seq<Fired>): seq<Delivery>
    decreases |fired|
  {
    if |fired| == 0 then []
    else
      var last := fired[|fired| - 1];
      var kind := KindOf(last.event);
      Deliveries(fired[..|fired| - 1]) +
        if HandlerThrows(last.item, last.event) then []
        else
          match Subscriber(last.item, kind)
          case None => []
          case Some(target) => [Delivery(target, NotificationCommand(kind), Payload(last.inventoryId, last.item.id, last.event))]
  }

  /** Callbacks append exactly their subscribers' deliveries, in the order they were raised. */
  lemma {:induction false} NotifyAllAppends(queue: seq<Delivery>, fired: seq<Fired>)
    ensures NotifyAll(queue, fired) == queue + Deliveries(fired)
    decreases |fired|
  {
    if |fired| != 0 {
      var init := fired[..|fired| - 1];
      var last := fired[|fired| - 1];
      NotifyAllAppends(queue, init);
      var q := NotifyAll(queue, init);
      var kind := KindOf(last.event);
      if HandlerThrows(last.item, last.event) || Subscriber(last.item, kind).None? {
        assert Notify(q, last.inventoryId, last.item, last.event) == q;
      } else {
        var d := Delivery(Subscriber(last.item, kind).value, NotificationCommand(kind), Payload(last.inventoryId, last.item.id, last.event));
        assert Notify(q, last.inventoryId, last.item, last.event) == q + [d];
        assert (queue + Deliveries(init)) + [d] == queue + (Deliveries(init) + [d]);
      }
    }
  }

  /**
   * Callbacks raised between two ticks reach their subscribers at the top of
   * the next tick, in the order they were raised, after any backlog an
   * earlier guarded tick left queued, unless the multiplayer guard holds the
   * queue back again.
   */
  method DeliverNextTick(st: State, fired: seq<Fired>, disableInMp: bool, networkGameRunning: bool)
    returns (delivered: seq<Delivery>)
    ensures !(disableInMp && networkGameRunning) ==> delivered == st.queue + Deliveries(fired)
    ensures disableInMp && networkGameRunning ==> delivered == []
  {
    NotifyAllAppends(st.queue, fired);
    var st1 := st.(queue := NotifyAll(st.queue, fired));
    var st2, proceed;
    st2, delivered, proceed := Prologue(st1, disableInMp, networkGameRunning);
  }

  /**
   * The game state the housekeeping passes consult. `weightSumRuns` says
   * HandlePlayerImpacts sums the inventory weight this tick (a weight
   * setting is on and the sprint key is held); `toSingle` says whether
   * Convert.ToSingle accepts a boxed value.
   */
  datatype Game = Game(
    running: set<Guid>,
    held: Held,
    slots: seq<WeaponSlot>,
    armoury: Armoury,
    order: map<Guid, Item> -> seq<Guid>,
    weightSumRuns: bool,
    toSingle: Value -> bool)

  /** Convert.ToSingle(item.Tags["WEIGHT"]) succeeds on every item that has the tag. */
  predicate WeightReadable(item: Item, g: Game)
  {
    WeightTag in item.tags ==> g.toSingle(item.tags[WeightTag])
  }

  /** GetTotalInventoryWeight, run by HandlePlayerImpacts, throws on some item of the inventory. */
  predicate ImpactsThrow(items: map<Guid, Item>, g: Game)
  {
    g.weightSumRuns && exists k :: k in items && !WeightReadable(items[k], g)
  }

  /**
   * CheckForInvalidScriptItems, HandlePlayerImpacts, the weapon update and
   * the auto-add pass, run on the player inventory as the resize left it.
   * An exception ends the tick: later passes do not run and the third
   * component reports it.
   */
  function Housekeep(inv: Inventory, nextId: Guid, g: Game): (r: (Inventory, Guid, bool))
    requires forall k :: k in inv.items ==> k < nextId
    ensures nextId <= r.1
    ensures r.0.(items := inv.items) == inv
    ensures forall k :: k in r.0.items ==> k < r.1
    ensures forall k :: k in r.0.items && k !in inv.items ==> nextId <= k
    ensures r.2 ==> r.1 == nextId && r.0.items.Keys <= inv.items.Keys
  {
    var (afterOrphans, ownerFault) := RemoveOrphans(inv.items, g.order(inv.items), g.running);
    if ownerFault || ImpactsThrow(afterOrphans, g) then (inv.(items := afterOrphans), nextId, true)
    else
      var (afterWeapons, weaponFault) := UpdateWeapons(afterOrphans, g.order(afterOrphans), g.held);
      if weaponFault then (inv.(items := afterWeapons), nextId, true)
      else
        var (added, next) := AutoAdd(inv.(items := afterWeapons), nextId, g.slots, g.armoury);
        (added, next, false)
  }

  /**
   * A WEIGHT tag Convert.ToSingle rejects, on an item that survived the
   * orphan sweep, ends the tick when the weight is summed: the weapon
   * update and the auto-add pass do not run.
   */
  lemma ImpactsFaultEndsTick(inv: Inventory, nextId: Guid, g: Game)
    requires forall k :: k in inv.items ==> k < nextId
    requires !RemoveOrphans(inv.items, g.order(inv.items), g.running).1
    requires ImpactsThrow(RemoveOrphans(inv.items, g.order(inv.items), g.running).0, g)
    ensures Housekeep(inv, nextId, g) == (inv.(items := RemoveOrphans(inv.items, g.order(inv.items), g.running).0), nextId, true)
  {
  }

  /** GetItems hands out a snapshot of whatever items it is given. */
  predicate SnapshotsOnly(g: Game, m: map<Guid, Item>)
  {
    Snapshot(m, g.order(m))
  }

  /** The items that survive both sweeps, as the weapon update leaves them. */
  function Survivors(items: map<Guid, Item>, g: Game): map<Guid, Item>
    requires forall k :: k in items ==> WeaponTypeReadable(items[k])
  {
    map k | k in items && !IsOrphan(items[k], g.running) && WeaponKept(items[k], g.held) :: Relabelled(items[k], g.held)
  }

  /**
   * When no owner tag, weight or weapon type is malformed, the tick removes the
   * orphans and the stale weapons, relabels the rest, and then adds items
   * for the carried weapons.
   */
  lemma HousekeepWithoutFaults(inv: Inventory, nextId: Guid, g: Game)
    requires forall k :: k in inv.items ==> k < nextId
    requires forall k :: k in inv.items ==>
      OwnerReadable(inv.items[k]) && WeightReadable(inv.items[k], g) && WeaponTypeReadable(inv.items[k])
    requires SnapshotsOnly(g, inv.items)
    requires SnapshotsOnly(g, map k | k in inv.items && !IsOrphan(inv.items[k], g.running) :: inv.items[k])
    ensures var r := Housekeep(inv, nextId, g);
      && !r.2
      && (r.0, r.1) == AutoAdd(inv.(items := Survivors(inv.items, g)), nextId, g.slots, g.armoury)
  {
    var kept := map k | k in inv.items && !IsOrphan(inv.items[k], g.running) :: inv.items[k];
    RemoveOrphansExactly(inv.items, g.order(inv.items), g.running);
    UpdateWeaponsExactly(kept, g.order(kept), g.held);
    SurvivorsOfKept(inv.items, kept, g);
  }

  lemma SurvivorsOfKept(items: map<Guid, Item>, kept: map<Guid, Item>, g: Game)
    requires forall k :: k in items ==> WeaponTypeReadable(items[k])
    requires kept == map k | k in items && !IsOrphan(items[k], g.running) :: items[k]
    ensures forall k :: k in kept ==> WeaponTypeReadable(kept[k])
    ensures (map k | k in kept && WeaponKept(kept[k], g.held) :: Relabelled(kept[k], g.held)) == Survivors(items, g)
  {
  }

  /** A step that never changes an item's id. */
  ghost predicate KeepsIds(step: Step)
  {
    forall item: Item :: step(item).Ok? && step(item).value.Some? ==> step(item).value.value.id == item.id
  }

  /** A sweep with an id-preserving step keeps every item filed under its own id. */
  lemma {:induction false} SweepKeepsIds(items: map<Guid, Item>, order: seq<Guid>, step: Step)
    requires forall k :: k in items ==> items[k].id == k
    requires KeepsIds(step)
    ensures var r := Sweep(items, order, step).0;
      forall k :: k in r ==> r[k].id == k
    decreases |order|
  {
    if |order| != 0 {
      var id := order[0];
      if id !in items {
        assert Sweep(items, order, step) == Sweep(items, order[1..], step);
        SweepKeepsIds(items, order[1..], step);
      } else {
        match step(items[id])
        case Fault =>
        case Ok(None) =>
          assert Sweep(items, order, step) == Sweep(items - {id}, order[1..], step);
          SweepKeepsIds(items - {id}, order[1..], step);
        case Ok(Some(updated)) =>
          assert updated.id == id;
          assert Sweep(items, order, step) == Sweep(items[id := updated], order[1..], step);
          SweepKeepsIds(items[id := updated], order[1..], step);
      }
    }
  }

  lemma SubsetCardinality(small: map<Guid, Item>, big: map<Guid, Item>)
    requires small.Keys <= big.Keys
    ensures |small| <= |big|
  {
    assert |small.Keys| <= |big.Keys| by {
      var extra := big.Keys - small.Keys;
      assert big.Keys == small.Keys + extra;
    }
  }

  /** Every housekeeping pass, even one cut short by an exception, keeps the inventory valid. */
  lemma HousekeepKeepsValid(inv: Inventory, nextId: Guid, g: Game)
    requires forall k :: k in inv.items ==> k < nextId
    requires Inventories.Valid(inv)
    ensures Inventories.Valid(Housekeep(inv, nextId, g).0)
  {
    var orphanStep := OrphanSweepStep(g.running);
    var weaponStep := WeaponSweepStep(g.held);
    assert KeepsIds(orphanStep) by {
      forall item: Item | orphanStep(item).Ok? && orphanStep(item).value.Some?
        ensures orphanStep(item).value.value.id == item.id
      {
        assert orphanStep(item) == OrphanStep(item, g.running);
      }
    }
    assert KeepsIds(weaponStep) by {
      forall item: Item | weaponStep(item).Ok? && weaponStep(item).value.Some?
        ensures weaponStep(item).value.value.id == item.id
      {
        assert weaponStep(item) == WeaponStep(item, g.held);
      }
    }
    var (afterOrphans, ownerFault) := RemoveOrphans(inv.items, g.order(inv.items), g.running);
    assert afterOrphans == Sweep(inv.items, g.order(inv.items), orphanStep).0;
    SweepKeepsIds(inv.items, g.order(inv.items), orphanStep);
    SubsetCardinality(afterOrphans, inv.items);
    if !ownerFault && !ImpactsThrow(afterOrphans, g) {
      var (afterWeapons, weaponFault) := UpdateWeapons(afterOrphans, g.order(afterOrphans), g.held);
      assert afterWeapons == Sweep(afterOrphans, g.order(afterOrphans), weaponStep).0;
      SweepKeepsIds(afterOrphans, g.order(afterOrphans), weaponStep);
      SubsetCardinality(afterWeapons, afterOrphans);
    }
  }

  /**
   * Writing an inventory back under its id keeps the registry invariant when
   * the inventory stays valid and every id it gained is one no inventory
   * holds yet.
   */
  lemma WriteBackKeepsValid(st: State, p: Guid, inv: Inventory, nextId: Guid)
    requires Dispatcher.Valid(st) && st.pool.Some? && p in st.pool.value
    requires inv.id == p && Inventories.Valid(inv) && st.nextId <= nextId
    requires forall k :: k in inv.items ==> k < nextId
    requires forall k :: k in inv.items && k !in st.pool.value[p].items ==> st.nextId <= k
    ensures Dispatcher.Valid(st.(pool := Some(st.pool.value[p := inv]), nextId := nextId))
  {
    var pool := st.pool.value;
    var pool' := pool[p := inv];
    forall i, j | i in pool' && j in pool' && i != j
      ensures pool'[i].items.Keys !! pool'[j].items.Keys
    {
      if i == p {
        assert pool'[j] == pool[j];
      } else if j == p {
        assert pool'[i] == pool[i];
      }
    }
  }

  /**
   * The tick's housekeeping, written back into the registry with the ids it
   * drew, keeps the registry invariant: the items it adds carry ids no
   * inventory holds yet.
   */
  lemma HousekeepKeepsRegistry(st: State, g: Game)
    requires Dispatcher.Valid(st)
    requires st.player.Some?
    ensures var pool := st.pool.value;
      var p := st.player.value;
      var r := Housekeep(pool[p], st.nextId, g);
      Dispatcher.Valid(st.(pool := Some(pool[p := r.0]), nextId := r.1))
  {
    var pool := st.pool.value;
    var p := st.player.value;
    var r := Housekeep(pool[p], st.nextId, g);
    HousekeepKeepsValid(pool[p], st.nextId, g);
    WriteBackKeepsValid(st, p, r.0, r.1);
  }
}

=== FILE: values.dfy ===
/**
 * Values that cross the inter-script command boundary: GUID identities,
 * loosely typed boxed arguments, and the coercions the command handlers
 * apply to them (unboxing casts and the Convert.ToXxx family). A coercion
 * that throws in the host runtime yields Fault, which the dispatcher's
 * catch-all turns into a null reply.
 */
module Values {

  datatype Option<+T> = None | Some(value: T)

  /** The result of a step that may throw. */
  datatype Outcome<+T> = Ok(value: T) | Fault {
    predicate IsFailure() {
      Fault?
    }

    function PropagateFailure<U>(): Outcome<U>
      requires Fault?
    {
      Fault
    }

    function Extract(): T
      requires Ok?
    {
      value
    }
  }

  /** A GUID, identified with the number its 32 hexadecimal digits spell; 0 is Guid.Empty. */
  type Guid = nat

  const EmptyGuid: Guid := 0

  /** A boxed argument or tag value. */
  datatype Value =
    | VNull
    | VBool(b: bool)
    | VInt(i: int)          // a boxed integral value of any width
    | VStr(s: string)
    | VGuid(g: Guid)
    | VPtr(address: int)    // a boxed IntPtr
    | VOpaque(text: string) // any other boxed object, which the Convert family rejects; only its ToString() text is modelled

  const Int32Min: int := -0x8000_0000
  const Int32Limit: int := 0x8000_0000
  const UInt32Limit: int := 0x1_0000_0000

  /** A value of a 32-bit signed integer out-parameter. */
  type Int32 = i: int | Int32Min <= i < Int32Limit

  /** args[i]: an index past the end throws. */
  function Arg(args: seq<Value>, i: nat): Outcome<Value>
  {
    if i < |args| then Ok(args[i]) else Fault
  }

  /** The unboxing cast (Guid)v: null and every other boxed type throw. */
  function UnboxGuid(v: Value): Outcome<Guid>
  {
    if v.VGuid? then Ok(v.g) else Fault
  }

  /** The unboxing cast (IntPtr)v. */
  function UnboxPtr(v: Value): Outcome<int>
  {
    if v.VPtr? then Ok(v.address) else Fault
  }

  /** (Guid)args[i]. */
  function GuidArg(args: seq<Value>, i: nat): (r: Outcome<Guid>)
    ensures r.Ok? <==> i < |args| && args[i].VGuid?
    ensures r.Ok? ==> args[i] == VGuid(r.value)
  {
    var v :- Arg(args, i);
    UnboxGuid(v)
  }

  // ---------------------------------------------------------------------
  // Decimal and hexadecimal text

  predicate IsDigit(c: char) {
    '0' <= c <= '9'
  }

  predicate AllDigits(s: string) {
    forall i :: 0 <= i < |s| ==> IsDigit(s[i])
  }

  function Digit(d: nat): (c: char)
    requires d < 10
    ensures IsDigit(c) && c as int - '0' as int == d
  {
    ('0' as int + d) as char
  }

  /** The decimal digits of n, most significant first. */
  function DecimalText(n: nat): (s: string)
    ensures 1 <= |s| && AllDigits(s)
  {
    if n < 10 then [Digit(n)] else DecimalText(n / 10) + [Digit(n % 10)]
  }

  /** The number a string of decimal digits spells. */
  function DigitsValue(s: string): nat
    requires AllDigits(s)
  {
    if |s| == 0 then 0
    else DigitsValue(s[..|s| - 1]) * 10 + (s[|s| - 1] as int - '0' as int)
  }

  lemma {:induction false} DecimalRoundTrip(n: nat)
    ensures DigitsValue(DecimalText(n)) == n
  {
    if n >= 10 {
      var s := DecimalText(n);
      assert s[..|s| - 1] == DecimalText(n / 10);
      DecimalRoundTrip(n / 10);
    }
  }

  /** int.ToString(): an optional minus sign and the decimal digits. */
  function IntText(i: int): string
  {
    if i < 0 then "-" + DecimalText(-i) else DecimalText(i)
  }

  /** Integer parsing as Int32.Parse reads it: an optional sign, then one or more digits. */
  function ParseInteger(s: string): Option<int>
  {
    if 1 < |s| && (s[0] == '-' || s[0] == '+') && AllDigits(s[1..]) then
      Some(if s[0] == '-' then 0 - DigitsValue(s[1..]) else DigitsValue(s[1..]) as int)
    else if 0 < |s| && AllDigits(s) then
      Some(DigitsValue(s))
    else
      None
  }

  lemma IntTextRoundTrip(i: int)
    ensures ParseInteger(IntText(i)) == Some(i)
  {
    var s := IntText(i);
    if i < 0 {
      assert s[1..] == DecimalText(-i);
      DecimalRoundTrip(-i);
    } else {
      assert s[0] != '-' && s[0] != '+';
      DecimalRoundTrip(i);
    }
  }

  function HexDigit(d: nat): char
    requires d < 16
  {
    if d < 10 then Digit(d) else ('a' as int + d - 10) as char
  }

  /** The lowest `width` hexadecimal digits of n, most significant first. */
  function HexText(n: nat, width: nat): (s: string)
    ensures |s| == width
  {
    if width == 0 then "" else HexText(n / 16, width - 1) + [HexDigit(n % 16)]
  }

  /** Guid.ToString(): 32 lower-case hex digits grouped 8-4-4-4-12. */
  function GuidText(g: Guid): (s: string)
    ensures |s| == 36
  {
    var h := HexText(g, 32);
    h[..8] + "-" + h[8..12] + "-" + h[12..16] + "-" + h[16..20] + "-" + h[20..]
  }

  // ---------------------------------------------------------------------
  // The Convert family

  /** Convert.ToString(object): null gives the empty string, everything else its ToString(). */
  function ToText(v: Value): string
  {
    match v
    case VNull => ""
    case VBool(b) => if b then "True" else "False"
    case VInt(i) => IntText(i)
    case VStr(s) => s
    case VGuid(g) => GuidText(g)
    case VPtr(a) => IntText(a)
    case VOpaque(t) => t
  }

  function InRange(i: int, lo: int, hi: int): (r: Outcome<int>)
    ensures r.Ok? <==> lo <= i < hi
    ensures r.Ok? ==> r.value == i
  {
    if lo <= i < hi then Ok(i) else Fault
  }

  /**
   * The shared shape of Convert.ToInt32 and Convert.ToUInt32: null is 0,
   * booleans are 1 and 0, integers and numeric strings must fit the target
   * range (OverflowException otherwise), and every other type throws.
   */
  function ToIntegral(v: Value, lo: int, hi: int): (r: Outcome<int>)
    ensures r.Ok? ==> lo <= r.value < hi || (v.VNull? && r.value == 0) || (v.VBool? && r.value in {0, 1})
    ensures v.VInt? ==> (r.Ok? <==> lo <= v.i < hi)
    ensures v.VInt? && r.Ok? ==> r.value == v.i
  {
    match v
    case VNull => Ok(0)
    case VBool(b) => Ok(if b then 1 else 0)
    case VInt(i) => InRange(i, lo, hi)
    case VStr(s) =>
      (match ParseInteger(s)
       case Some(i) => InRange(i, lo, hi)
       case None => Fault)
    case _ => Fault
  }

  function ToInt32(v: Value): (r: Outcome<int>)
    ensures r.Ok? ==> Int32Min <= r.value < Int32Limit
  {
    ToIntegral(v, Int32Min, Int32Limit)
  }

  function ToUInt32(v: Value): (r: Outcome<nat>)
    ensures r.Ok? ==> r.value < UInt32Limit
  {
    var i :- ToIntegral(v, 0, UInt32Limit);
    Ok(i)
  }

  function LowerAscii(c: char): char
  {
    if 'A' <= c <= 'Z' then (c as int - 'A' as int + 'a' as int) as char else c
  }

  function Lower(s: string): (r: string)
    ensures |r| == |s|
  {
    seq(|s|, i requires 0 <= i < |s| => LowerAscii(s[i]))
  }

  /** Convert.ToBoolean(object): "true"/"false" in any letter case for strings, non-zero for integers. */
  function ToBoolean(v: Value): Outcome<bool>
  {
    match v
    case VNull => Ok(false)
    case VBool(b) => Ok(b)
    case VInt(i) => Ok(i != 0)
    case VStr(s) =>
      if Lower(s) == "true" then Ok(true)
      else if Lower(s) == "false" then Ok(false)
      else Fault
    case _ => Fault
  }

  /** Text written by Convert.ToString for an Int32 reads back through Convert.ToInt32. */
  lemma Int32TextRoundTrip(i: int)
    requires Int32Min <= i < Int32Limit
    ensures ToInt32(VStr(ToText(VInt(i)))) == Ok(i)
  {
    IntTextRoundTrip(i);
  }

  /** Text written by Convert.ToString for a boolean reads back through Convert.ToBoolean. */
  lemma BooleanTextRoundTrip(b: bool)
    ensures ToBoolean(VStr(ToText(VBool(b)))) == Ok(b)
  {
    if b {
      assert Lower("True") == "true";
    } else {
      assert Lower("False") != "true";
      assert Lower("False") == "false";
    }
  }
}
